=== FILE: README.md ===
# Chinese flashcards, modelled in Dafny

The project models the core of a Chinese–Polish flashcard web app and proves
properties of that model. The app is a React single-page app, and each
core source file becomes one Dafny module:

- `Session` (`src/App.js`) is the study screen. It covers:
  - the deck filter by lesson and difficulty, which keeps deck order;
  - the study order, either identity or shuffled;
  - the wrapping cursor and the boundary reset;
  - the per-card reveal state and the four-stage swipe-up cycle;
  - the difficulty ledger, which is toggled and "sticky": a label change does not re-run the filter;
  - the lesson and difficulty selections;
  - the keyboard dispatch.

  It is a class whose methods are the handlers. Each handler runs until React's effects have settled.
- `CleanupDuplicates` (`cleanup_duplicates.js`) and `DeduplicateChinese` (`deduplicate_chinese.js`) are the maintenance scripts. Each keeps the first record of every `chiński` key, using a `seen` set, and counts the repeats.
- `Catalogue` (`src/components/Catalogue.js`) is the card catalogue. It covers:
  - search over normalised fields;
  - the random order;
  - the lookup of a card's difficulty by content;
  - the difficulty dots;
  - the per-item random blur mask and the blur decision.
- `Quiz` (`src/components/Quiz.js`) is the multiple-choice quiz. It draws distractors without replacement, and, with the reset keyed on the configuration in force, its answer latch fires once per card.
- `Settings` (`src/components/SettingsPanel.js`) is the lesson list of the settings panel. It covers:
  - `DD.MM.YYYY` parsing;
  - the year and month checkboxes;
  - the newest-first lesson list;
  - the four-way lesson filter.
- `SelectableText` (`src/components/SelectableText.js`) is drag selection over the characters of a text, with its highlight and corner classes.
- `SelectionPopup` (`src/components/SelectionPopup.js`) is the dictionary lookup for a selected text.

Three modules are shared by the others:
- `Options` is the option type.
- `Seqs` holds list routines: filter, `findIndex`, `includes`, toggling membership, `new Set`, shuffling from explicit picks, and a descending sort.
- `Cards` holds the card record, its three fields, the difficulty labels and the random choice of hidden fields.

Every random choice in the source is a parameter of the model:
- The comparator shuffles take `picks`, and every permutation can be reached from some picks.
- Random blur takes a `BlurDraw`.
- The quiz's splice index is an arbitrary choice inside the loop.

Two things the source calls are also parameters: the Unicode NFD decomposition, and the DOM's character-under-pointer lookup.

The code and the design description of the study screen disagree in two places, and the model follows the code:
- `handleReveal` sets a field's revealed flag even when the display mode already shows that field.
- The cursor goes back to 0 only when it falls off the end of a non-empty filtered deck. It does not reset whenever the deck becomes non-empty again after being empty.

## Model

| member | source | states |
|---|---|---|
| Cards.HiddenFields | src/App.js:232-240 | a blur draw hides 1 or 2 distinct fields |
| Cards.Fields.Set | src/App.js:333-337 | `{ ...prev, [field]: v }` changes that field and no other |
| Cards.Fields.FalseCount | src/App.js:242-246 | at most 3 fields are off, and none iff all three are on |
| Cards.ShownUnless | src/App.js:242-246 | a field is shown exactly when it is not among the hidden ones |
| Cards.HiddenFieldsAreShuffledPrefix | src/App.js:236-240 | the hidden fields are the first `numHidden` of the shuffled field list |
| Cards.RandomDisplayMode | src/App.js:242-246 | the random display mode switches off 1 or 2 of the 3 fields |
| Cards.RandomDisplayModeHides | src/App.js:242-246 | a field is off exactly when the draw hides it, and as many are off as the draw hides |
| Seqs.Filter | src/App.js:192 | an element is kept iff it is in the list and passes the test; the result is no longer than the list |
| Seqs.FilterMultiset | src/App.js:192 | filtering keeps every occurrence of a passing value and none of the others |
| Seqs.FilterSubsequence | src/App.js:192 | filtering keeps the list's order (an order-preserving subsequence) |
| Seqs.FindIndex | src/components/Catalogue.js:126-130 | `findIndex`: -1 iff no element passes, otherwise the first passing position |
| Seqs.Includes | src/components/Catalogue.js:105-107 | `includes` holds iff the needle occurs at some position |
| Seqs.ToggleMember | src/App.js:339-349 | toggling flips the membership of that one value and of no other |
| Seqs.ToggleTwice | src/App.js:339-349 | toggling twice restores the membership of every value |
| Seqs.Remove | src/App.js:341 | `filter(l => l !== x)` drops every copy of the value and keeps every other value |
| Seqs.Distinct | src/App.js:154 | `[...new Set(xs)]` has no duplicates and the same members |
| Seqs.DistinctFirstAppearance | src/App.js:154 | `[...new Set(xs)]` keeps first appearances in order: any occurrence of a later value comes after an occurrence of each earlier one |
| Seqs.Take | src/components/SelectionPopup.js:19 | `slice(0, n)` is the first `min(n, length)` elements |
| Seqs.RemoveAtMultiset | src/components/Quiz.js:47-48 | `splice(k, 1)` after reading `s[k]` removes exactly that one occurrence |
| Seqs.Shuffled | src/App.js:213 | a shuffle keeps the length |
| Seqs.ShuffledPermutes | src/App.js:213 | a shuffle is a permutation of its input |
| Seqs.ShuffledReachesEveryPermutation | src/App.js:213 | every permutation of the input is the shuffle for some picks |
| Seqs.PermutationOfDistinct | src/components/SettingsPanel.js:40 | a permutation of a duplicate-free list is duplicate-free |
| Seqs.InsertionSortDesc | src/components/SettingsPanel.js:82 | the sort is a permutation ordered by descending key |
| Seqs.InsertDescFilter | src/components/SettingsPanel.js:82 | an inserted element lands before every element of its own key already there |
| Seqs.InsertionSortStable | src/components/SettingsPanel.js:82 | the sort is stable: the elements of each key keep their relative order, as `Array.prototype.sort` does |
| Session.FilterDeck | src/App.js:188-208 | the filter yields positions of the deck |
| Session.PassingBefore | src/App.js:188-208 | the passing positions found among the first `n` cards are all below `n` |
| Session.PassingBeforeMembers | src/App.js:188-208 | a position below `n` is found iff its card passes both filters |
| Session.FilterDeckMembers | src/App.js:188-208 | a card passes iff its lesson is selected or none is, and its difficulty (unset or empty counts as `średnie`) is selected or none is; positions increase; with nothing selected, the whole deck passes |
| Session.FilterDeckTwoStage | src/App.js:189-206 | the passing positions are exactly what the lesson filter, then the difficulty filter, keep |
| Session.FilteredSubsequence | src/App.js:189-206 | the filtered cards are an order-preserving subsequence of the deck |
| Session.Order | src/App.js:211-218 | the order has one entry per filtered card |
| Session.OrderPermutation | src/App.js:211-218 | the order is a permutation of `0 .. n-1`, and exactly the identity without `isRandom` |
| Session.OrderReachesEveryPermutation | src/App.js:213 | every permutation of `0 .. n-1` is a possible random order |
| Session.NextIndex | src/App.js:304-308 | the next index stays in `[0, n)`: the successor, with the last card wrapping to 0 |
| Session.PrevIndex | src/App.js:310-314 | the previous index stays in `[0, n)`: the predecessor, with 0 wrapping to the last card |
| Session.NextPrevInverse | src/App.js:304-314 | prev undoes next and next undoes prev |
| Session.BoundaryIndex | src/App.js:251-255 | an index past the end of a non-empty deck becomes 0; otherwise it is unchanged |
| Session.ToggleLedger | src/App.js:320-331 | the label is deleted when the card already has it and set otherwise; no other key changes |
| Session.ToggleLedgerTwice | src/App.js:320-331 | the same label twice leaves an unset card unset, and leaves a card with another label unset |
| Session.AnyHidden | src/App.js:360-363 | `isAnyHidden` iff some field is off in the effective mode and not revealed |
| Session.RevealAllHidesNothing | src/App.js:316-318 | once all fields are revealed, nothing is hidden, whatever the mode |
| Session.SwipeStep | src/App.js:285-299 | one swipe up reveals all, or shows the example (and records it as viewed), or hides it, or resets the card, by the four stage conditions |
| Session.SwipeCycleHidden | src/App.js:285-299 | from a fresh card with something hidden, four swipes go reveal → show → hide → fresh |
| Session.SwipeCycleVisible | src/App.js:285-299 | from a fresh card with nothing hidden, three swipes go show → hide → fresh |
| Session.AllLessons | src/App.js:154 | `allLessons` lists every lesson id of the deck once |
| Session.ArrangedWholeDeck | src/App.js:207-208 | with nothing selected, the ledger the filter last ran with does not matter |
| Session.Session.CurrentCardId | src/App.js:156-157 | the card on screen is a filtered deck position |
| Session.Session.constructor | src/App.js:188-218 | after the mount effects: filtered, ordered, on card 0, nothing revealed |
| Session.Session.MoveTo | src/App.js:229-267 | a new index clears the reveal state and the example history and redraws the random blur; the filter and order stay |
| Session.Session.Next | src/App.js:304-308 | `handleNext` moves to the next index and hides the example, with the card-change effects; it changes only the cursor and the card view, and leaves another index whenever the deck has more than one card |
| Session.Session.Prev | src/App.js:310-314 | `handlePrev` moves to the previous index and hides the example, with the card-change effects; it changes only the cursor and the card view, and leaves another index whenever the deck has more than one card |
| Session.Session.RevealAll | src/App.js:316-318 | all fields are revealed, so nothing is hidden; nothing else changes |
| Session.Session.HandleReveal | src/App.js:333-337 | only the named field is revealed |
| Session.Session.HandleReset | src/App.js:276-280 | back to the fresh view: nothing revealed, no example, no history |
| Session.Session.SetShowExample | src/App.js:269-274 | showing the example marks it viewed |
| Session.Session.SwipeUp | src/App.js:285-299 | the new view is one swipe step from the old one |
| Session.Session.SetDifficulty | src/App.js:320-331 | toggles the current card's label; the filtered deck is not recomputed |
| Session.Session.ChangeSelection | src/App.js:187-255 | a new selection filters with the current ledger, reorders unless the result is the same deck array, clears the reveal state and clamps the cursor |
| Session.Session.KeepWholeDeck | src/App.js:206-218 | empty selections before and after give the same array, so the order and the blur are kept |
| Session.Session.Refilter | src/App.js:187-255 | a new filtered array gets a new order and blur, and the cursor is clamped |
| Session.Session.Select | src/App.js:188-218 | the filter and order effects for new selections |
| Session.Session.ClampAndClear | src/App.js:222-255 | the effects after a new filtered array: blur redrawn, reveal cleared, cursor clamped |
| Session.Session.ToggleLesson | src/App.js:339-343 | flips one lesson; the state is then `Reselected`, ChangeSelection's full post-state, with a field frame |
| Session.Session.ToggleDifficulty | src/App.js:345-349 | flips one difficulty; the state is then `Reselected`, ChangeSelection's full post-state, with a field frame |
| Session.Session.SelectAllLessons | src/App.js:351 | selects every lesson of the deck; the state is then `Reselected`, with a field frame |
| Session.Session.DeselectAllLessons | src/App.js:352 | clears the lesson selection; the state is then `Reselected`, with a field frame |
| Session.Session.SelectAllDifficulties | src/App.js:354 | selects the three labels; the state is then `Reselected`, with a field frame |
| Session.Session.DeselectAllDifficulties | src/App.js:355 | clears the difficulty selection; the state is then `Reselected`, with a field frame |
| Session.Session.SetRandom | src/App.js:211-227 | a new `isRandom` rebuilds the order and clears the reveal state; the same value changes nothing |
| Session.Session.SetRandomBlur | src/App.js:229-248 | switching random blur on draws a new mask; only `isRandomBlur` and the mask may change |
| Session.Session.SetDisplayField | src/components/SettingsPanel.js:144 | one display-mode checkbox changes, and only `displayMode` may change |
| Session.Session.HandleKey | src/App.js:369-423 | nothing happens on an empty deck or in a text field; otherwise each key has exactly the effect of the handler it calls: d/a/arrows move as `handleNext`/`handlePrev`; Space reveals all or advances; c/s/↓ reveal all or toggle the example; 1/2/3 toggle the label without moving or changing the view; r resets the view; the selections, display mode and deck are never touched |
| CleanupDuplicates.Flatten | cleanup_duplicates.js:23-25 | `flat(Infinity)` leaves no nested array |
| CleanupDuplicates.FlattenFlat | cleanup_duplicates.js:24 | flattening a flat list changes nothing |
| CleanupDuplicates.FlattenIdempotent | cleanup_duplicates.js:24 | flattening twice is flattening once |
| CleanupDuplicates.FlattenAppend | cleanup_duplicates.js:24 | flattening distributes over concatenation |
| CleanupDuplicates.KeptIndices | cleanup_duplicates.js:33-52 | falsy items are never kept, keyless items always are, kept positions increase |
| CleanupDuplicates.KeptBefore | cleanup_duplicates.js:33-52 | the kept positions among the first `n` items are below `n` and increase |
| CleanupDuplicates.BeforeMembers | cleanup_duplicates.js:33-52 | among the first `n` items, the three lists hold exactly the kept positions, the repeats (truthy key already seen) and the falsy items |
| CleanupDuplicates.Unique | cleanup_duplicates.js:33-52 | `uniqueData` is the kept items, an order-preserving subsequence of the flat input |
| CleanupDuplicates.SeenKeysMembership | cleanup_duplicates.js:40-44 | the `seen` set holds exactly the truthy keys met so far |
| CleanupDuplicates.Step | cleanup_duplicates.js:33-52 | one loop step keeps an item iff it is not falsy and is keyless or its key is unseen |
| CleanupDuplicates.Cleanup | cleanup_duplicates.js:23-52 | the loop yields `Unique` of the flattened data and the repeat count |
| CleanupDuplicates.UniqueKeysDistinct | cleanup_duplicates.js:39-45 | kept items with a truthy key have pairwise distinct keys |
| CleanupDuplicates.CleanupCounts | cleanup_duplicates.js:31-52 | kept + duplicates + skipped falsy items = input length |
| CleanupDuplicates.CountsBefore | cleanup_duplicates.js:33-52 | every position is counted once: kept, repeat or skipped |
| DeduplicateChinese.SeenKeysMembership | deduplicate_chinese.js:16-17 | the `seen` set holds exactly the truthy keys met so far |
| DeduplicateChinese.Unique | deduplicate_chinese.js:15-27 | `uniqueData` is the kept records, an order-preserving subsequence |
| DeduplicateChinese.KeptBefore | deduplicate_chinese.js:15-27 | the kept positions among the first `n` records are below `n` and increase |
| DeduplicateChinese.BeforeMembers | deduplicate_chinese.js:15-27 | among the first `n` records, the two lists hold exactly the kept positions and the repeats of a truthy key already seen |
| DeduplicateChinese.Deduplicate | deduplicate_chinese.js:12-30 | the loop yields `Unique`, and the removed count is the number of repeats, never negative |
| DeduplicateChinese.CountsBefore | deduplicate_chinese.js:15-27 | every record is kept or a repeat |
| DeduplicateChinese.KeptOrRepeat | deduplicate_chinese.js:16-26 | a record is kept iff it does not repeat an earlier truthy key |
| DeduplicateChinese.KeptIffUnseen | deduplicate_chinese.js:16-19 | a record is kept iff its key is falsy or not in `seen` |
| DeduplicateChinese.UniqueKeysDistinct | deduplicate_chinese.js:15-27 | kept records with a truthy key have pairwise distinct keys |
| DeduplicateChinese.AgreesWithCleanup | deduplicate_chinese.js:15-27 | on flat input without falsy items both scripts keep the same records |
| Catalogue.StripMarks | src/components/Catalogue.js:91 | exactly the combining marks U+0300–U+036F are removed |
| Catalogue.LowerChar | src/components/Catalogue.js:91 | a lowered character is not a capital; other characters are unchanged |
| Catalogue.Lower | src/components/Catalogue.js:91 | `toLowerCase` lowers each character in place and keeps the length |
| Catalogue.NormalizeText | src/components/Catalogue.js:90-92 | a falsy text gives ""; the result has no capitals and no combining marks |
| Catalogue.FoldIdempotent | src/components/Catalogue.js:91 | stripping marks and lowering is idempotent |
| Catalogue.Search | src/components/Catalogue.js:95-109 | an empty term returns the cards unchanged |
| Catalogue.SearchKeeps | src/components/Catalogue.js:98-108 | a non-empty term keeps exactly the cards where the normalised term occurs in a normalised field, every occurrence, in order |
| Catalogue.FinalCards | src/components/Catalogue.js:114-120 | `finalCards` has one entry per filtered card |
| Catalogue.FinalCardsPermutes | src/components/Catalogue.js:114-120 | `finalCards` is `filteredBase` without `isRandom`, a permutation of it with it, and every permutation is possible |
| Catalogue.GetDifficulty | src/components/Catalogue.js:123-133 | null when `allCards` or `difficulties` is missing or no card has the same three fields |
| Catalogue.GetDifficultyFirstMatch | src/components/Catalogue.js:126-132 | otherwise it is the ledger entry at the first card with the same content |
| Catalogue.GetDifficultyShared | src/components/Catalogue.js:126-132 | a later card with the same content shows the earlier card's difficulty |
| Catalogue.GetDifficultyOwnEntry | src/components/Catalogue.js:126-132 | in a deck of distinct contents each card shows its own entry |
| Catalogue.DifficultyDots | src/components/Catalogue.js:44-50 | 1/2/3 dots for łatwe/średnie/trudne, none otherwise |
| Catalogue.RandomBlurMask | src/components/Catalogue.js:10-23 | no field when random blur is off; otherwise exactly the 1 or 2 fields the draw hides |
| Catalogue.CatalogueItem.constructor | src/components/Catalogue.js:5-23 | an item starts unrevealed, with the mask of its draw |
| Catalogue.CatalogueItem.Click | src/components/Catalogue.js:63 | a click flips `isRevealed` |
| Catalogue.CatalogueItem.SetRandomBlur | src/components/Catalogue.js:10-23 | the mask is redrawn only when `isRandomBlur` changes |
| Catalogue.CatalogueItem.ShouldBlur | src/components/Catalogue.js:25-32 | never once revealed; else the random mask with random blur, else the unchecked display fields |
| Catalogue.CatalogueItem.BlurredCountBounds | src/components/Catalogue.js:25-32 | a revealed item blurs nothing; with random blur 1 or 2 fields are blurred |
| Quiz.OptionsCount | src/components/Quiz.js:13 | `optionsCount || 4` |
| Quiz.QuestionType | src/components/Quiz.js:14 | `questionType || 'chinese'` |
| Quiz.AnswerType | src/components/Quiz.js:15 | `answerType || 'polish'` |
| Quiz.FieldOfType | src/components/Quiz.js:18-24 | an unknown type shows `chiński` |
| Quiz.FieldOfTypeName | src/components/Quiz.js:20-22 | each type name shows its own field |
| Quiz.GetDisplayText | src/components/Quiz.js:18-24 | `'???'` for no card, else the typed field, `chiński` for an unknown type |
| Quiz.QuestionLabel | src/components/Quiz.js:27-32 | `'Pytanie'` iff the type is unknown |
| Quiz.QuestionLabelsDistinct | src/components/Quiz.js:27-31 | the three known types have different labels |
| Quiz.Pool | src/components/Quiz.js:43 | the pool is the cards whose `chiński` differs from the current card's |
| Quiz.GenerateOptions | src/components/Quiz.js:35-56 | no options without cards; otherwise `min(max(count, 0), pool size)` distractors drawn without replacement from the pool, where `count` is `min(optionsCount - 1, cards - 1)`; the options are a permutation of the card plus its distractors, which is `OptionsFor`, and hold the card |
| Quiz.DrawDistractors | src/components/Quiz.js:45-49 | the loop draws `min(max(count, 0), pool size)` pool entries without replacement (no entry more often than the pool holds it), each a possible distractor |
| Quiz.Draw | src/components/Quiz.js:47-48 | one splice moves the picked card from the pool to the distractors, losing and adding nothing |
| Quiz.FilterPermutation | src/components/Quiz.js:52-55 | shuffling does not change what a filter keeps |
| Quiz.OneRightAnswer | src/components/Quiz.js:52-55 | the options hold the current card, and it is the only right answer among them |
| Quiz.OptionsForOneRight | src/components/Quiz.js:35-56 | any options `generateOptions` can draw hold the card as their only right answer |
| Quiz.QuizState.constructor | src/components/Quiz.js:10-56 | a fresh quiz has no answer, and its options are `OptionsFor` the card: GenerateOptions' count, pool draw and permutation |
| Quiz.EffectiveConfig | src/components/Quiz.js:8 | the default object when no `config` is passed, else the prop |
| Quiz.Click | src/components/Quiz.js:63-83 | a click leaves an option latched; a latched answer ignores the click; `onNext` is scheduled iff the latch was open and the option is right |
| Quiz.AfterRender | src/components/Quiz.js:58-61 | the latch is cleared when the reset effect runs, and kept otherwise |
| Quiz.DoubleScheduleAsWritten | src/components/Quiz.js:58-61 | without a `config` prop the re-render after a right click clears the latch, and a second right click schedules `onNext` again |
| Quiz.LatchHolds | src/components/Quiz.js:58-83 | with the reset keyed on the configuration in force, a re-render keeps the latch and no later click schedules `onNext` |
| Quiz.QuizState.HandleOptionClick | src/components/Quiz.js:63-83 | the latch and the scheduling are `Click` of the old latch: the first click latches the answer and whether it is right; while latched, clicks change nothing; `onNext` is scheduled only for a first right answer |
| Quiz.QuizState.Update | src/components/Quiz.js:35-61 | options are redrawn as `OptionsFor` the new props when the card, cards or count change, and kept otherwise; the latch is `AfterRender` with the reset keyed on a change of card or of the configuration in force |
| Settings.Split | src/components/SettingsPanel.js:32 | `split` gives one more part than separators, none holding the separator |
| Settings.JoinSplit | src/components/SettingsPanel.js:32 | joining the parts of a split gives back the string |
| Settings.SplitJoin | src/components/SettingsPanel.js:32 | splitting a join of separator-free parts gives back the parts |
| Settings.ParseNumber | src/components/SettingsPanel.js:34 | a number iff the text is a non-empty digit string |
| Settings.NatToString | src/components/SettingsPanel.js:90 | `toString` of a number is a non-empty digit string |
| Settings.ParseNatToString | src/components/SettingsPanel.js:90 | reading back a number's digits gives the number |
| Settings.ParseDate | src/components/SettingsPanel.js:30-37 | the epoch for an empty text or one that does not split into 3 parts; otherwise `D.M.Y` as year Y, month M, day D |
| Settings.ParseFormat | src/components/SettingsPanel.js:30-37 | a lesson id written from a date parses back to that date |
| Settings.ParseDateWellFormed | src/components/SettingsPanel.js:34 | every parsed date names a month 1–12 and a day 1–31 |
| Settings.MonthValueChecks | src/components/SettingsPanel.js:41-46 | a date's month value is its checkbox value; an invalid date's `'NaN'` is never one |
| Settings.DateKeyOrder | src/components/SettingsPanel.js:82 | the sort key orders dates as the calendar does |
| Settings.SortedAllLessons | src/components/SettingsPanel.js:82 | `sortedAllLessons` is a permutation of `allLessons`, newest first |
| Settings.SortedAllLessonsStable | src/components/SettingsPanel.js:82 | lessons with the same date key keep their order in `allLessons` |
| Settings.Years | src/components/SettingsPanel.js:40 | each lesson's year, in order |
| Settings.UniqueYearsSpec | src/components/SettingsPanel.js:40 | `uniqueYears` has no duplicates, strictly falls, and holds exactly the lessons' years |
| Settings.YearsDescending | src/components/SettingsPanel.js:40 | a duplicate-free list sorted newest first is strictly falling |
| Settings.YearsMembers | src/components/SettingsPanel.js:40 | the mapped years are exactly the years of the lessons |
| Settings.FilteredLessons | src/components/SettingsPanel.js:84-93 | the list is no longer than the sorted lessons |
| Settings.FilteredLessonsMembers | src/components/SettingsPanel.js:84-93 | a lesson is listed iff it contains the search text, the view allows it, and its year and its month are checked; in 'selected' view every listed lesson is selected; the list keeps the sorted order |
| Settings.ToggleYearAsWrittenAgrees | src/components/SettingsPanel.js:66-72 | for a real year the written toggle is the membership toggle |
| Settings.NaNYearStaysChecked | src/components/SettingsPanel.js:66-72 | toggling the checked `NaN` year leaves it checked |
| Settings.SettingsPanel.constructor | src/components/SettingsPanel.js:26-53 | the panel mounts with every year and month checked |
| Settings.SettingsPanel.ToggleYear | src/components/SettingsPanel.js:66-72 | flips whether one year is checked and no other |
| Settings.SettingsPanel.ToggleMonth | src/components/SettingsPanel.js:74-80 | flips whether one month is checked and no other; only month values are ever checked |
| Settings.SettingsPanel.SetLessonSearch | src/components/SettingsPanel.js:195 | sets the search text and nothing else |
| Settings.SettingsPanel.SetLessonView | src/components/SettingsPanel.js:245-251 | sets the view and nothing else |
| Settings.SettingsPanel.SetAllLessons | src/components/SettingsPanel.js:59-63 | when the year count changes, an empty year selection is refilled with every year |
| Settings.SettingsPanel.ListedLessonsValid | src/components/SettingsPanel.js:84-93 | every listed lesson is one of the app's lessons and has a valid date |
| SelectableText.Clamp | src/components/SelectableText.js:74 | a `substring` argument is clamped into the string |
| SelectableText.Substring | src/components/SelectableText.js:74 | `substring` is never longer than the string |
| SelectableText.SelectedTextSpan | src/components/SelectableText.js:74 | for a range inside the text the selected text has `end - start + 1` characters, those of the range; it is empty iff the range starts past the end |
| SelectableText.FoundIff | src/components/SelectableText.js:93-103 | some character lies in the range iff the range starts inside the text |
| SelectableText.HighlightIsSelectedText | src/components/SelectableText.js:168 | the highlighted characters are exactly the reported text |
| SelectableText.CornerClassCases | src/components/SelectableText.js:173-182 | a one-character selection gets `rounded-md`; a longer one gets `rounded-l-md` at its start, `rounded-r-md` at its end, and no rounding inside; unselected characters get no rounding |
| SelectableText.DragRange | src/components/SelectableText.js:52-53 | the drag range is the characters between the anchor and the pointer, so it holds the anchor |
| SelectableText.SelectableText.constructor | src/components/SelectableText.js:4-8 | a fresh component has no selection and no drag |
| SelectableText.SelectableText.SyncActiveSelection | src/components/SelectableText.js:11-16 | the local selection is cleared when the active selection is absent or belongs to another component |
| SelectableText.SelectableText.PointerDown | src/components/SelectableText.js:26-44 | a primary press on a character anchors a one-character selection and clears the app's selection; other presses change nothing |
| SelectableText.SelectableText.PointerMove | src/components/SelectableText.js:46-58 | while dragging, the selection runs from min to max of the anchor and the pointer; otherwise nothing changes |
| SelectableText.SelectableText.PointerUp | src/components/SelectableText.js:60-126 | the drag ends; with a listener and a selection inside the text the selected substring is reported, otherwise both selections are cleared |
| SelectionPopup.QualifiesIffContains | src/components/SelectionPopup.js:13-18 | an entry qualifies iff its `chiński` contains the text, so an exact match qualifies too |
| SelectionPopup.Lookup | src/components/SelectionPopup.js:5-19 | nothing for a missing selection or empty text; otherwise at most 3 dictionary entries, each containing the text |
| SelectionPopup.LookupFirstMatches | src/components/SelectionPopup.js:13-19 | a qualifying entry with fewer than 3 qualifying entries before it is listed; the list keeps dictionary order |
| SelectionPopup.LookupAllWhenFew | src/components/SelectionPopup.js:13-19 | with at most 3 qualifying entries, all of them are listed |

## Left out

- Cloud sync through Supabase: network I/O and a 2000 ms debounce timer (src/App.js:89-152).
- `localStorage` loads and saves: browser storage. Stored preferences are the arguments of `Session.Session.constructor`.
- Theme application: DOM style writes.
- JSX rendering, CSS class strings apart from the corner classes, and the swipe animation `direction` flag.
- Event-listener and swipe-library wiring. Only the handler bodies are modelled.
- The dedup scripts' file reading, JSON parsing, file writing, logging and `process.exit`.
- Pixel geometry: the selection's union rectangle and the popup's position. These are floating point and DOM measurement. `found` is derived from the span indices, which are `0 .. |text|-1`.
- `getIndexFromPoint`, the DOM lookup of the character under the pointer. It becomes the `index` argument. Pointer capture is also left out.
- Randomness quality: a comparator shuffle is modelled as an arbitrary permutation chosen by `picks`, and a random draw as an arbitrary choice. Uniformity is not modelled.
- React effect scheduling is folded into the handler that triggers each effect, and dependencies are compared by value. The one place where reference comparison changes the outcome, the quiz's default `config`, is listed under "## Findings".
- Catalogue.NormalizeText: the NFD decomposition is a parameter, because it is a library call. Lower-casing covers only `A`–`Z` and `Ł`, not Unicode case folding.
- Settings.FromParts: engine-defined `Date` string parsing is modelled as digit strings with month 1–12 and day 1–31. Day roll-over (such as 31 February), time zones and non-digit forms are not modelled. The model assumes a time zone at or east of UTC, so that `new Date(0)` falls in 1970.
- Settings.SortedAllLessons: the source comparator gives `NaN` for an invalid date, which leaves its place up to the engine. The model sorts invalid dates last.
- Settings.SortedAllLessons: time zones are not modelled. In the source, a zero-padded id such as `05.01.2024` becomes the ISO date `2024-01-05`, read as UTC midnight. An unpadded id such as `5.1.2024` becomes `2024-1-5`, read as local midnight. The two are different sort keys away from UTC, so east of UTC the padded id sorts first whatever their order. The model gives both the same `DateKey`.
- Settings.UniqueYearsSpec: the source sort compares the `NaN` year as equal to every year. The model puts it last.
- Quiz.OptionsCount: a missing `optionsCount` is modelled as the falsy value 0.
- Quiz.GenerateOptions: the current card is always present. Without one, the source throws at `currentCard.chiński` (src/components/Quiz.js:43) whenever the cards are non-empty, and the render throws at `currentCard.pinyin` (src/components/Quiz.js:101). Only `Quiz.GetDisplayText` models a missing card.
- Quiz.QuizState.HandleOptionClick: the latch holds across renders only with the corrected reset of `Quiz.QuizState.Update`. As written, it holds only when the parent passes a stable `config` object (see "## Findings").
- DeduplicateChinese.Deduplicate: the input is a flat list of card records. In the source, a `null` entry throws at `item.chiński` (deduplicate_chinese.js:16), so the run ends in the `catch` with nothing written. An entry that is not a record has no `chiński` and is kept unchanged (deduplicate_chinese.js:19-25).
- SelectionPopup.Lookup: a dictionary entry without `chiński` is modelled with the field as `""`, so it never matches. In the source, `card.chiński.includes(selection.text)` (src/components/SelectionPopup.js:18) throws a TypeError on such an entry for every non-empty selection, and the popup fails to render. The maintenance scripts keep records without the key (cleanup_duplicates.js:46-51, deduplicate_chinese.js:19-25).
- SelectableText.Substring: the model indexes Unicode characters, while `split('')` and `substring` work on UTF-16 code units. For a text with a character outside the Basic Multilingual Plane, the source shows one span per surrogate half, and its indices and reported substring differ from the model's.
- SelectableText.SelectableText.PointerUp: it reads the selection as of the latest handler, not as of the last render.
- CleanupDuplicates.Flatten: the parsed data is a tree of falsy values, card records and arrays. Other JSON values are not modelled.
- Catalogue.CatalogueItem.constructor: items are keyed by list position, so React may reuse an item's state when the list changes. The model gives each item its own state.

## Findings

| source | as written | input that shows it | evidently intended | confidence | as-written member | corrected member |
|---|---|---|---|---|---|---|
| src/components/SettingsPanel.js:66-72 | `toggleYear` finds the `NaN` year with `includes`, which compares by SameValueZero, but removes it with `y !== year`, which is true for `NaN`, so the filter keeps it | a lesson `01.13.2024` parses to an invalid date, so its year is `NaN`; clicking that checked year box leaves it checked | clicking a checked year box unchecks it | not executed | Settings.NaNYearStaysChecked | Settings.SettingsPanel.ToggleYear |
| src/components/Quiz.js:8 | the reset effect depends on `config`, compared by reference; the default parameter `config = { ... }` is a new object on every render, so without a `config` prop the reset runs after every render, including the one a click causes, and clears `selectedOption` | Quiz rendered without a `config` prop; two clicks on the right answer within a second | the answer stays latched until the card or the configuration changes, so `onNext` runs once per card | not executed | Quiz.DoubleScheduleAsWritten | Quiz.QuizState.Update |

=== FILE: cards.dfy ===
/**
 * The flashcard record, its three displayable fields, the difficulty labels,
 * and the random choice of 1 or 2 fields to hide that the "random blur" mode
 * of both the study screen and the catalogue uses.
 */
module Cards {
  import opened Seqs

  /**
   * One entry of the deck: `chiński`, `pinyin`, `polskie_znaczenie` and the
   * lesson id `id_lekcji` (a `DD.MM.YYYY` date string). A missing field is "".
   */
  datatype Card = Card(chinese: string, pinyin: string, polish: string, lesson: string)

  /** The three fields a card shows, named as in `displayMode`. */
  datatype Field = Chinese | Pinyin | Polish

  const FIELDS: seq<Field> := [Chinese, Pinyin, Polish]

  /** The text a card shows for a field. */
  function Text(card: Card, f: Field): string {
    match f
    case Chinese => card.chinese
    case Pinyin => card.pinyin
    case Polish => card.polish
  }

  /** A `{ chinese, pinyin, polish }` record of flags (display mode, revealed fields, blur mask). */
  datatype Fields = Fields(chinese: bool, pinyin: bool, polish: bool) {
    function Get(f: Field): bool {
      match f
      case Chinese => chinese
      case Pinyin => pinyin
      case Polish => polish
    }

    /** `{ ...this, [f]: v }`. */
    function Set(f: Field, v: bool): (r: Fields)
      ensures r.Get(f) == v
      ensures forall g :: g != f ==> r.Get(g) == Get(g)
    {
      match f
      case Chinese => this.(chinese := v)
      case Pinyin => this.(pinyin := v)
      case Polish => this.(polish := v)
    }

    /** How many of the three flags are false. */
    function FalseCount(): (n: nat)
      ensures n <= 3
      ensures n == 0 <==> chinese && pinyin && polish
    {
      (if chinese then 0 else 1) + (if pinyin then 0 else 1) + (if polish then 0 else 1)
    }
  }

  const ALL_FIELDS: Fields := Fields(true, true, true)
  const NO_FIELDS: Fields := Fields(false, false, false)

  /** The difficulty labels a card can be given. */
  const EASY: string := "łatwe"
  const MEDIUM: string := "średnie"
  const HARD: string := "trudne"
  const LEVELS: seq<string> := [EASY, MEDIUM, HARD]

  /** The `difficulties` object: a sparse map from a card's deck position to its label. */
  type Ledger = map<nat, string>

  /**
   * The coins behind one random-blur draw: whether two fields are hidden
   * rather than one, and the picks that shuffle the field list.
   */
  datatype BlurDraw = BlurDraw(twoHidden: bool, picks: seq<nat>)

  /** How many fields a draw hides: 1 or 2. */
  function HiddenCount(draw: BlurDraw): nat {
    if draw.twoHidden then 2 else 1
  }

  /** The field a draw hides first: its first pick among all three. */
  function FirstHidden(draw: BlurDraw): Field {
    FIELDS[PickAt(draw.picks, 3)]
  }

  /** The field a draw hides second: its second pick among the two fields left. */
  function SecondHidden(draw: BlurDraw): Field {
    var a := PickAt(draw.picks, 3);
    var b := PickAt(Tail(draw.picks), 2);
    FIELDS[if b < a then b else b + 1]
  }

  /**
   * The fields a draw hides: the first 1 or 2 of the shuffled field list, as
   * `HiddenFieldsAreShuffledPrefix` states.
   */
  function HiddenFields(draw: BlurDraw): (h: seq<Field>)
    ensures |h| == HiddenCount(draw)
    ensures NoDuplicates(h)
  {
    if draw.twoHidden then [FirstHidden(draw), SecondHidden(draw)] else [FirstHidden(draw)]
  }

  /** The hidden fields are the first 1 or 2 of `Shuffled(FIELDS, picks)`. */
  lemma HiddenFieldsAreShuffledPrefix(draw: BlurDraw)
    ensures HiddenFields(draw) == Shuffled(FIELDS, draw.picks)[..HiddenCount(draw)]
  {
    ShuffledFirstTwo(FIELDS, draw.picks);
  }

  /** The field list names each field once. */
  lemma FieldsDistinct()
    ensures NoDuplicates(FIELDS)
  {
    forall i, j | 0 <= i < j < |FIELDS| ensures FIELDS[i] != FIELDS[j] {
      assert FIELDS[0] == Chinese && FIELDS[1] == Pinyin && FIELDS[2] == Polish;
    }
  }

  /** A list of distinct fields names each field at most once, so its length is the number of fields in it. */
  lemma {:induction false} DistinctFieldsCount(h: seq<Field>)
    requires NoDuplicates(h) && |h| <= 3
    ensures (if Chinese in h then 1 else 0) + (if Pinyin in h then 1 else 0) + (if Polish in h then 1 else 0) == |h|
  {
    if h != [] {
      assert h == [h[0]] + h[1..];
      assert h[0] !in h[1..];
      assert forall f :: f in h <==> f == h[0] || f in h[1..];
      DistinctFieldsCount(h[1..]);
    }
  }

  /** The flags that show every field except those in `h`. */
  function ShownUnless(h: seq<Field>): (m: Fields)
    ensures forall f :: m.Get(f) <==> f !in h
  {
    Fields(Chinese !in h, Pinyin !in h, Polish !in h)
  }

  /**
   * The random display mode of the study screen: every field shown except
   * the ones the draw hides, which are 1 or 2 (`RandomDisplayModeHides`).
   */
  function RandomDisplayMode(draw: BlurDraw): (m: Fields)
    ensures 1 <= m.FalseCount() <= 2
  {
    var h := HiddenFields(draw);
    DistinctFieldsCount(h);
    ShownUnless(h)
  }

  /** A field is switched off exactly when the draw hides it, so 1 or 2 are off. */
  lemma RandomDisplayModeHides(draw: BlurDraw)
    ensures forall f :: !RandomDisplayMode(draw).Get(f) <==> f in HiddenFields(draw)
    ensures RandomDisplayMode(draw).FalseCount() == HiddenCount(draw)
  {
    DistinctFieldsCount(HiddenFields(draw));
  }
}

=== FILE: catalogue.dfy ===
/**
 * The catalogue overlay (`src/components/Catalogue.js`): a grid of every card
 * of the filtered deck, searchable over accent-stripped, lower-cased text,
 * optionally shuffled, each tile showing its difficulty as dots and blurring
 * the fields the display mode (or a random mask) hides until it is clicked.
 */
module Catalogue {
  import opened Options
  import opened Seqs
  import opened Cards

  /** A code point of the Combining Diacritical Marks block, U+0300 to U+036F. */
  predicate IsCombiningMark(c: char) {
    '\U{0300}' <= c <= '\U{036F}'
  }

  predicate NotMark(c: char) {
    !IsCombiningMark(c)
  }

  /** `replace(/[\u0300-\u036f]/g, "")`: every combining mark removed, the rest kept in order. */
  function StripMarks(s: string): (r: string)
    ensures forall c :: c in r <==> c in s && !IsCombiningMark(c)
  {
    Filter(s, NotMark)
  }

  /** A capital letter that `toLowerCase` changes: the Latin capitals and the Polish `Ł`. */
  predicate IsUpper(c: char) {
    ('A' <= c <= 'Z') || c == 'Ł'
  }

  /** `toLowerCase` on one character, for the capitals of `IsUpper`. */
  function LowerChar(c: char): (d: char)
    ensures !IsUpper(d)
    ensures IsCombiningMark(d) <==> IsCombiningMark(c)
    ensures !IsUpper(c) ==> d == c
  {
    if 'A' <= c <= 'Z' then (c as int + 32) as char
    else if c == 'Ł' then 'ł'
    else c
  }

  /** `toLowerCase`: each character lowered in place. */
  function Lower(s: string): (r: string)
    ensures |r| == |s|
    ensures forall i :: 0 <= i < |s| ==> r[i] == LowerChar(s[i])
  {
    seq(|s|, i requires 0 <= i < |s| => LowerChar(s[i]))
  }

  /** The folding applied after decomposition: marks stripped, then lower-cased. */
  function Fold(s: string): string {
    Lower(StripMarks(s))
  }

  /**
   * `normalizeText`: a falsy text gives ""; otherwise the NFD decomposition
   * (the library call `nfd`) with its combining marks stripped, lower-cased.
   */
  function NormalizeText(text: string, nfd: string -> string): (r: string)
    ensures text == "" ==> r == ""
    ensures forall c :: c in r ==> !IsUpper(c) && !IsCombiningMark(c)
  {
    if text == "" then "" else
      var r := Fold(nfd(text));
      assert forall c :: c in r ==> exists i :: 0 <= i < |r| && r[i] == c;
      r
  }

  /** Folding is idempotent: a folded text holds no mark and no capital left to change. */
  lemma FoldIdempotent(s: string)
    ensures Fold(Fold(s)) == Fold(s)
  {
    var f := Fold(s);
    assert forall c :: c in f ==> !IsCombiningMark(c) by {
      forall c | c in f ensures !IsCombiningMark(c) {
        var i :| 0 <= i < |f| && f[i] == c;
      }
    }
    FilterKeepsAll(f, NotMark);
    assert Lower(f) == f;
  }

  /**
   * A card matches a normalised search term: the term occurs in its
   * normalised `chiński`, `pinyin` or `polskie_znaczenie`.
   */
  predicate Matches(card: Card, needle: string, nfd: string -> string) {
    || Includes(NormalizeText(card.chinese, nfd), needle)
    || Includes(NormalizeText(card.pinyin, nfd), needle)
    || Includes(NormalizeText(card.polish, nfd), needle)
  }

  function Matcher(needle: string, nfd: string -> string): Card -> bool {
    card => Matches(card, needle, nfd)
  }

  /**
   * `filteredBase`: all cards for an empty search term, otherwise those that
   * match the normalised term (`SearchKeeps`).
   */
  function Search(cards: seq<Card>, term: string, nfd: string -> string): (r: seq<Card>)
    ensures term == "" ==> r == cards
    ensures |r| <= |cards|
  {
    if term == "" then cards else Filter(cards, Matcher(NormalizeText(term, nfd), nfd))
  }

  /**
   * A non-empty search keeps, in their original order and with their
   * multiplicity, exactly the cards in one of whose three normalised fields
   * the normalised term occurs.
   */
  lemma SearchKeeps(cards: seq<Card>, term: string, nfd: string -> string)
    requires term != ""
    ensures var needle := NormalizeText(term, nfd);
      forall card :: card in Search(cards, term, nfd) <==>
        card in cards &&
        (OccursIn(needle, NormalizeText(card.chinese, nfd)) ||
         OccursIn(needle, NormalizeText(card.pinyin, nfd)) ||
         OccursIn(needle, NormalizeText(card.polish, nfd)))
    ensures var needle := NormalizeText(term, nfd);
      forall card :: multiset(Search(cards, term, nfd))[card] ==
        if Matches(card, needle, nfd) then multiset(cards)[card] else 0
    ensures IsSubsequence(Search(cards, term, nfd), cards)
  {
    var p := Matcher(NormalizeText(term, nfd), nfd);
    FilterMultiset(cards, p);
    FilterSubsequence(cards, p);
  }

  /** `finalCards`: a copy of the base list, shuffled when `isRandom` (`FinalCardsPermutes`). */
  function FinalCards(base: seq<Card>, isRandom: bool, picks: seq<nat>): (r: seq<Card>)
    ensures |r| == |base|
  {
    if isRandom then Shuffled(base, picks) else base
  }

  /**
   * The final list is the base list itself unless `isRandom`; it is always a
   * permutation of it, and with `isRandom` every permutation can come out.
   */
  lemma FinalCardsPermutes(base: seq<Card>, isRandom: bool, picks: seq<nat>, other: seq<Card>)
    ensures multiset(FinalCards(base, isRandom, picks)) == multiset(base)
    ensures !isRandom ==> FinalCards(base, isRandom, picks) == base
    ensures multiset(other) == multiset(base) ==> exists p :: FinalCards(base, true, p) == other
  {
    ShuffledPermutes(base, picks);
    if multiset(other) == multiset(base) {
      var p := ShuffledReachesEveryPermutation(base, other);
      assert FinalCards(base, true, p) == other;
    }
  }

  /** Two cards agree on `chiński`, `pinyin` and `polskie_znaczenie` (the lesson is not compared). */
  predicate SameContent(a: Card, b: Card) {
    a.chinese == b.chinese && a.pinyin == b.pinyin && a.polish == b.polish
  }

  function ContentOf(card: Card): Card -> bool {
    c => SameContent(c, card)
  }

  /** Position `i` of `all` is the first card with the content of `card`. */
  predicate FirstMatch(all: seq<Card>, card: Card, i: nat) {
    i < |all| && SameContent(all[i], card) && forall j :: 0 <= j < i ==> !SameContent(all[j], card)
  }

  /**
   * `getDifficulty`: null without `allCards` or `difficulties`; otherwise the
   * ledger entry of the first deck card with the same content, null (or
   * undefined) when there is none or it has no entry.
   */
  function GetDifficulty(allCards: Option<seq<Card>>, difficulties: Option<Ledger>, card: Card): (r: Option<string>)
    ensures allCards.None? || difficulties.None? ==> r == None
    ensures allCards.Some? && (forall j :: 0 <= j < |allCards.value| ==> !SameContent(allCards.value[j], card)) ==> r == None
  {
    if allCards.None? || difficulties.None? then None
    else
      var i := FindIndex(allCards.value, ContentOf(card));
      if i == -1 then None
      else if i in difficulties.value then Some(difficulties.value[i])
      else None
  }

  /** With a first match at `i`, the difficulty is the ledger entry at `i`. */
  lemma GetDifficultyFirstMatch(all: seq<Card>, ledger: Ledger, card: Card, i: nat)
    requires FirstMatch(all, card, i)
    ensures GetDifficulty(Some(all), Some(ledger), card) == if i in ledger then Some(ledger[i]) else None
  {
    var k := FindIndex(all, ContentOf(card));
    assert ContentOf(card)(all[i]);
  }

  /**
   * The lookup is by content, not by position: a deck card whose content an
   * earlier card shares shows the earlier card's difficulty.
   */
  lemma GetDifficultyShared(all: seq<Card>, ledger: Ledger, i: nat, j: nat)
    requires i < j < |all| && SameContent(all[i], all[j])
    ensures GetDifficulty(Some(all), Some(ledger), all[j]) == GetDifficulty(Some(all), Some(ledger), all[i])
  {
    var k := FindIndex(all, ContentOf(all[i]));
    assert ContentOf(all[i])(all[i]);
    assert FirstMatch(all, all[i], k);
    assert FirstMatch(all, all[j], k);
    GetDifficultyFirstMatch(all, ledger, all[i], k);
    GetDifficultyFirstMatch(all, ledger, all[j], k);
  }

  /** When the deck's contents are pairwise distinct, each deck card shows its own ledger entry. */
  lemma GetDifficultyOwnEntry(all: seq<Card>, ledger: Ledger, i: nat)
    requires i < |all|
    requires forall a, b :: 0 <= a < b < |all| ==> !SameContent(all[a], all[b])
    ensures GetDifficulty(Some(all), Some(ledger), all[i]) == if i in ledger then Some(ledger[i]) else None
  {
    GetDifficultyFirstMatch(all, ledger, all[i], i);
  }

  /** `getDifficultyDots`: one dot for łatwe, two for średnie, three for trudne, none otherwise. */
  function DifficultyDots(difficulty: Option<string>): (n: nat)
    ensures n <= 3
    ensures n > 0 ==> difficulty == Some(LEVELS[n - 1])
    ensures n == 0 <==> !(difficulty.Some? && difficulty.value in LEVELS)
  {
    if difficulty == Some(EASY) then 1
    else if difficulty == Some(MEDIUM) then 2
    else if difficulty == Some(HARD) then 3
    else 0
  }

  /**
   * `randomBlurMask`: no field when random blur is off; otherwise the first 1
   * or 2 fields of a shuffled field list, set one by one. These are the
   * fields the study screen's random display mode hides for the same draw.
   */
  method RandomBlurMask(isRandomBlur: bool, draw: BlurDraw) returns (mask: Fields)
    ensures !isRandomBlur ==> mask == NO_FIELDS
    ensures isRandomBlur ==> forall f :: mask.Get(f) <==> f in HiddenFields(draw)
    ensures isRandomBlur ==> forall f :: mask.Get(f) <==> !RandomDisplayMode(draw).Get(f)
    ensures isRandomBlur ==> mask.FalseCount() == 3 - HiddenCount(draw)
  {
    mask := NO_FIELDS;
    if !isRandomBlur {
      return;
    }
    var shuffled := Shuffled(FIELDS, draw.picks);
    var numHidden := HiddenCount(draw);
    for i := 0 to numHidden
      invariant forall f :: mask.Get(f) <==> f in shuffled[..i]
    {
      assert shuffled[..i + 1] == shuffled[..i] + [shuffled[i]];
      mask := mask.Set(shuffled[i], true);
    }
    HiddenFieldsAreShuffledPrefix(draw);
    RandomDisplayModeHides(draw);
    DistinctFieldsCount(HiddenFields(draw));
  }

  /** One tile of the grid (`CatalogueItem`). */
  class CatalogueItem {
    const card: Card
    const difficulty: Option<string>
    const displayMode: Fields
    var isRandomBlur: bool
    var randomBlurMask: Fields
    var isRevealed: bool

    /** The draw the mask was last made from. */
    ghost var maskDraw: BlurDraw

    ghost predicate Valid()
      reads this
    {
      && (!isRandomBlur ==> randomBlurMask == NO_FIELDS)
      && (isRandomBlur ==> forall f :: randomBlurMask.Get(f) <==> f in HiddenFields(maskDraw))
    }

    /** A tile as mounted: not revealed, its mask drawn once. */
    constructor (c: Card, d: Option<string>, mode: Fields, randomBlur: bool, draw: BlurDraw)
      ensures Valid()
      ensures card == c && difficulty == d && displayMode == mode && isRandomBlur == randomBlur
      ensures !isRevealed && maskDraw == draw
    {
      var mask := RandomBlurMask(randomBlur, draw);
      card, difficulty, displayMode := c, d, mode;
      isRandomBlur, randomBlurMask, isRevealed := randomBlur, mask, false;
      maskDraw := draw;
    }

    /** A click flips `isRevealed`. */
    method Click()
      modifies this`isRevealed
      ensures isRevealed == !old(isRevealed)
    {
      isRevealed := !isRevealed;
    }

    /** A new `isRandomBlur` prop: the memoised mask is drawn again only when the value changed. */
    method SetRandomBlur(v: bool, draw: BlurDraw)
      requires Valid()
      modifies this`isRandomBlur, this`randomBlurMask, this`maskDraw
      ensures Valid()
      ensures isRandomBlur == v
      ensures v == old(isRandomBlur) ==> randomBlurMask == old(randomBlurMask) && maskDraw == old(maskDraw)
      ensures v != old(isRandomBlur) ==> maskDraw == draw
    {
      if v != isRandomBlur {
        var mask := RandomBlurMask(v, draw);
        isRandomBlur, randomBlurMask, maskDraw := v, mask, draw;
      }
    }

    /**
     * `shouldBlur`: never once revealed; otherwise the random mask when random
     * blur is on, else the fields the display mode leaves unchecked.
     */
    function ShouldBlur(f: Field): (b: bool)
      reads this
      ensures isRevealed ==> !b
      ensures Valid() && !isRevealed && isRandomBlur ==> (b <==> f in HiddenFields(maskDraw))
      ensures !isRevealed && !isRandomBlur ==> (b <==> !displayMode.Get(f))
    {
      if isRevealed then false
      else if isRandomBlur then randomBlurMask.Get(f)
      else !displayMode.Get(f)
    }

    /** How many of the three fields the tile blurs. */
    function BlurredCount(): nat
      reads this
    {
      (if ShouldBlur(Chinese) then 1 else 0) + (if ShouldBlur(Pinyin) then 1 else 0) + (if ShouldBlur(Polish) then 1 else 0)
    }

    /**
     * A revealed tile blurs nothing; an unrevealed one blurs the fields its
     * display mode unchecks, or, with random blur, exactly 1 or 2 fields.
     */
    lemma BlurredCountBounds()
      requires Valid()
      ensures isRevealed ==> BlurredCount() == 0
      ensures !isRevealed && !isRandomBlur ==> BlurredCount() == displayMode.FalseCount()
      ensures !isRevealed && isRandomBlur ==> BlurredCount() == HiddenCount(maskDraw)
      ensures !isRevealed && isRandomBlur ==> 1 <= BlurredCount() <= 2
    {
      DistinctFieldsCount(HiddenFields(maskDraw));
    }
  }
}

=== FILE: cleanup.dfy ===
/**
 * The maintenance script `cleanup_duplicates.js`: flatten the parsed data file,
 * skip falsy entries, and keep the first entry of each truthy `chiński` key,
 * counting the later repeats.
 */
module CleanupDuplicates {
  import opened Seqs
  import opened Cards

  /**
   * A value of the parsed data file, as far as the script distinguishes it:
   * a falsy value (`null`, `false`, `0`, `""`), a card record, or a nested array.
   */
  datatype Json = Falsy | Record(card: Card) | List(items: seq<Json>)

  /** No element is an array. */
  predicate IsFlat(s: seq<Json>) {
    forall i :: 0 <= i < |s| ==> !s[i].List?
  }

  /** `data.flat(Infinity)`: splice every nested array, at any depth, into its parent. */
  function Flatten(s: seq<Json>): (r: seq<Json>)
    ensures IsFlat(r)
    decreases s
  {
    if s == [] then []
    else
      var head := if s[0].List? then Flatten(s[0].items) else [s[0]];
      head + Flatten(s[1..])
  }

  /** A list that holds no array is left as it is. */
  lemma {:induction false} FlattenFlat(s: seq<Json>)
    requires IsFlat(s)
    ensures Flatten(s) == s
  {
    if s != [] {
      assert IsFlat(s[1..]);
      FlattenFlat(s[1..]);
      assert s == [s[0]] + s[1..];
    }
  }

  /** Flattening twice is flattening once. */
  lemma FlattenIdempotent(s: seq<Json>)
    ensures Flatten(Flatten(s)) == Flatten(s)
  {
    FlattenFlat(Flatten(s));
  }

  /** Flattening distributes over concatenation. */
  lemma {:induction false} FlattenAppend(a: seq<Json>, b: seq<Json>)
    ensures Flatten(a + b) == Flatten(a) + Flatten(b)
    decreases a
  {
    if a == [] {
      assert a + b == b;
    } else {
      assert (a + b)[0] == a[0];
      assert (a + b)[1..] == a[1..] + b;
      FlattenAppend(a[1..], b);
    }
  }

  /** `item.chiński` of a non-falsy item; "" when the field is missing or empty. */
  function Key(item: Json): string {
    if item.Record? then item.card.chinese else ""
  }

  /** The item carries a truthy `chiński` key. */
  predicate Keyed(item: Json) {
    Key(item) != ""
  }

  /**
   * Position `i` of the flat list survives: the item is not falsy, and either it
   * has no truthy key or no earlier non-falsy item carries the same key.
   */
  predicate Kept(data: seq<Json>, i: nat) {
    i < |data| && !data[i].Falsy? &&
    (!Keyed(data[i]) || forall j :: 0 <= j < i ==> !(Keyed(data[j]) && Key(data[j]) == Key(data[i])))
  }

  /** Position `i` holds a later occurrence of a key, counted in `duplicates`. */
  predicate Repeat(data: seq<Json>, i: nat) {
    i < |data| && Keyed(data[i]) && !Kept(data, i)
  }

  /** Position `i` holds a falsy item, skipped without being counted. */
  predicate Skipped(data: seq<Json>, i: nat) {
    i < |data| && data[i].Falsy?
  }

  /** The kept positions among the first `n`, in increasing order. */
  function KeptBefore(data: seq<Json>, n: nat): (r: seq<nat>)
    requires n <= |data|
    ensures forall k :: 0 <= k < |r| ==> r[k] < n
    ensures StrictlyIncreasing(r)
  {
    if n == 0 then []
    else KeptBefore(data, n - 1) + (if Kept(data, n - 1) then [n - 1] else [])
  }

  /** The repeat positions among the first `n`. */
  function RepeatsBefore(data: seq<Json>, n: nat): (r: seq<nat>)
    requires n <= |data|
  {
    if n == 0 then []
    else RepeatsBefore(data, n - 1) + (if Repeat(data, n - 1) then [n - 1] else [])
  }

  /** The skipped (falsy) positions among the first `n`. */
  function SkippedBefore(data: seq<Json>, n: nat): (r: seq<nat>)
    requires n <= |data|
  {
    if n == 0 then []
    else SkippedBefore(data, n - 1) + (if Skipped(data, n - 1) then [n - 1] else [])
  }

  /** The positions each list holds are exactly those of its class. */
  lemma BeforeMembers(data: seq<Json>, n: nat)
    requires n <= |data|
    ensures forall i: nat :: i in KeptBefore(data, n) <==> i < n && Kept(data, i)
    ensures forall i: nat :: i in RepeatsBefore(data, n) <==> i < n && Repeat(data, i)
    ensures forall i: nat :: i in SkippedBefore(data, n) <==> i < n && Skipped(data, i)
  {
    KeptMembers(data, n);
    RepeatMembers(data, n);
    SkippedMembers(data, n);
  }

  lemma {:induction false} KeptMembers(data: seq<Json>, n: nat)
    requires n <= |data|
    ensures forall i: nat :: i in KeptBefore(data, n) <==> i < n && Kept(data, i)
  {
    if n > 0 {
      KeptMembers(data, n - 1);
    }
  }

  lemma {:induction false} RepeatMembers(data: seq<Json>, n: nat)
    requires n <= |data|
    ensures forall i: nat :: i in RepeatsBefore(data, n) <==> i < n && Repeat(data, i)
  {
    if n > 0 {
      RepeatMembers(data, n - 1);
    }
  }

  lemma {:induction false} SkippedMembers(data: seq<Json>, n: nat)
    requires n <= |data|
    ensures forall i: nat :: i in SkippedBefore(data, n) <==> i < n && Skipped(data, i)
  {
    if n > 0 {
      SkippedMembers(data, n - 1);
    }
  }

  /** The keys of the keyed items among the first `n`: the `seen` set after `n` steps. */
  function SeenKeys(data: seq<Json>, n: nat): (r: set<string>)
    requires n <= |data|
  {
    if n == 0 then {}
    else SeenKeys(data, n - 1) + (if Keyed(data[n - 1]) then {Key(data[n - 1])} else {})
  }

  /** A key is in the `seen` set after `n` steps iff one of the first `n` items carries it. */
  lemma {:induction false} SeenKeysMembership(data: seq<Json>, n: nat, k: string)
    requires n <= |data|
    ensures k in SeenKeys(data, n) <==> exists j :: 0 <= j < n && Keyed(data[j]) && Key(data[j]) == k
  {
    if n > 0 {
      SeenKeysMembership(data, n - 1, k);
    }
  }

  /**
   * The kept positions of the whole list. Falsy items are never kept; non-falsy
   * items without a truthy key are always kept.
   */
  function KeptIndices(data: seq<Json>): (r: seq<nat>)
    ensures forall i: nat :: i in r <==> Kept(data, i)
    ensures forall i :: 0 <= i < |data| && data[i].Falsy? ==> i !in r
    ensures forall i :: 0 <= i < |data| && !data[i].Falsy? && !Keyed(data[i]) ==> i in r
    ensures forall k :: 0 <= k < |r| ==> r[k] < |data|
    ensures StrictlyIncreasing(r)
  {
    BeforeMembers(data, |data|);
    KeptBefore(data, |data|)
  }

  /** `uniqueData` for a flat list: its kept items, as an order-preserving subsequence. */
  function Unique(data: seq<Json>): (r: seq<Json>)
    ensures |r| == |KeptIndices(data)|
    ensures forall k :: 0 <= k < |r| ==> r[k] == data[KeptIndices(data)[k]]
    ensures IsSubsequence(r, data)
  {
    PickSubsequence(data, KeptIndices(data));
    Pick(data, KeptIndices(data))
  }

  /** The final value of `duplicates` for a flat list. */
  function DuplicateCount(data: seq<Json>): nat {
    |RepeatsBefore(data, |data|)|
  }

  /** The number of falsy items skipped. */
  function SkippedCount(data: seq<Json>): nat {
    |SkippedBefore(data, |data|)|
  }

  /** What one more step of the loop adds to the kept list, the repeats and the `seen` set. */
  lemma Step(data: seq<Json>, i: nat)
    requires i < |data|
    ensures KeptBefore(data, i + 1) == KeptBefore(data, i) + (if Kept(data, i) then [i] else [])
    ensures RepeatsBefore(data, i + 1) == RepeatsBefore(data, i) + (if Repeat(data, i) then [i] else [])
    ensures SeenKeys(data, i + 1) == SeenKeys(data, i) + (if Keyed(data[i]) then {Key(data[i])} else {})
    ensures Kept(data, i) <==> !data[i].Falsy? && (!Keyed(data[i]) || Key(data[i]) !in SeenKeys(data, i))
  {
    SeenKeysMembership(data, i, Key(data[i]));
    if Keyed(data[i]) && Key(data[i]) in SeenKeys(data, i) {
      var j :| 0 <= j < i && Keyed(data[j]) && Key(data[j]) == Key(data[i]);
      assert !Kept(data, i);
    }
  }

  /**
   * The script's loop over the flattened data: skip falsy items, keep items
   * without a truthy key, and keep a keyed item unless its key was seen, in
   * which case count it as a duplicate.
   */
  method Cleanup(raw: seq<Json>) returns (uniqueData: seq<Json>, duplicates: nat)
    ensures uniqueData == Unique(Flatten(raw))
    ensures duplicates == DuplicateCount(Flatten(raw))
  {
    var data := Flatten(raw);
    var seen: set<string> := {};
    uniqueData := [];
    duplicates := 0;
    for i := 0 to |data|
      invariant seen == SeenKeys(data, i)
      invariant uniqueData == Pick(data, KeptBefore(data, i))
      invariant duplicates == |RepeatsBefore(data, i)|
    {
      var item := data[i];
      Step(data, i);
      PickSnoc(data, KeptBefore(data, i), i);
      if item.Falsy? {
        continue;
      }
      var key := Key(item);
      if key != "" {
        if key in seen {
          duplicates := duplicates + 1;
        } else {
          seen := seen + {key};
          uniqueData := uniqueData + [item];
        }
      } else {
        uniqueData := uniqueData + [item];
      }
    }
  }

  /** The kept items with a truthy key carry pairwise distinct keys. */
  lemma UniqueKeysDistinct(data: seq<Json>)
    ensures forall a, b :: 0 <= a < b < |Unique(data)| && Keyed(Unique(data)[a]) ==>
      Key(Unique(data)[a]) != Key(Unique(data)[b])
  {
    var u := Unique(data);
    var idx := KeptIndices(data);
    forall a, b | 0 <= a < b < |u| && Keyed(u[a]) ensures Key(u[a]) != Key(u[b]) {
      assert idx[a] < idx[b];
      assert idx[b] in idx;
      assert Kept(data, idx[b]);
      assert u[a] == data[idx[a]] && u[b] == data[idx[b]];
    }
  }

  /** Every item is kept, counted as a duplicate, or skipped as falsy, exactly one of these. */
  lemma CleanupCounts(data: seq<Json>)
    ensures |Unique(data)| + DuplicateCount(data) + SkippedCount(data) == |data|
  {
    CountsBefore(data, |data|);
  }

  lemma {:induction false} CountsBefore(data: seq<Json>, n: nat)
    requires n <= |data|
    ensures |KeptBefore(data, n)| + |RepeatsBefore(data, n)| + |SkippedBefore(data, n)| == n
  {
    if n > 0 {
      CountsBefore(data, n - 1);
    }
  }
}

=== FILE: dedup.dfy ===
/**
 * The maintenance script `deduplicate_chinese.js`: over a flat list of card
 * records, keep the first record of each truthy `chiński` key and every record
 * without one, and report how many were removed.
 */
module DeduplicateChinese {
  import opened Seqs
  import opened Cards
  import CleanupDuplicates

  /**
   * Position `i` survives: its `chiński` is empty, or no earlier record has the
   * same `chiński`.
   */
  predicate Kept(data: seq<Card>, i: nat) {
    i < |data| &&
    (data[i].chinese == "" || forall j :: 0 <= j < i ==> data[j].chinese != data[i].chinese)
  }

  /** Position `i` repeats a truthy key that an earlier record already carries. */
  predicate Repeat(data: seq<Card>, i: nat) {
    i < |data| && data[i].chinese != "" && exists j :: 0 <= j < i && data[j].chinese == data[i].chinese
  }

  /** The kept positions among the first `n`, in increasing order. */
  function KeptBefore(data: seq<Card>, n: nat): (r: seq<nat>)
    requires n <= |data|
    ensures forall k :: 0 <= k < |r| ==> r[k] < n
    ensures StrictlyIncreasing(r)
  {
    if n == 0 then []
    else KeptBefore(data, n - 1) + (if Kept(data, n - 1) then [n - 1] else [])
  }

  /** The repeat positions among the first `n`. */
  function RepeatsBefore(data: seq<Card>, n: nat): (r: seq<nat>)
    requires n <= |data|
  {
    if n == 0 then []
    else RepeatsBefore(data, n - 1) + (if Repeat(data, n - 1) then [n - 1] else [])
  }

  /** The positions each list holds are exactly those of its class. */
  lemma {:induction false} BeforeMembers(data: seq<Card>, n: nat)
    requires n <= |data|
    ensures forall i: nat :: i in KeptBefore(data, n) <==> i < n && Kept(data, i)
    ensures forall i: nat :: i in RepeatsBefore(data, n) <==> i < n && Repeat(data, i)
  {
    if n > 0 {
      BeforeMembers(data, n - 1);
    }
  }

  /** The truthy keys among the first `n` records: the `seen` set after `n` steps. */
  function SeenKeys(data: seq<Card>, n: nat): set<string>
    requires n <= |data|
  {
    if n == 0 then {}
    else SeenKeys(data, n - 1) + (if data[n - 1].chinese != "" then {data[n - 1].chinese} else {})
  }

  /** A key is in the `seen` set after `n` steps iff one of the first `n` records carries it. */
  lemma {:induction false} SeenKeysMembership(data: seq<Card>, n: nat, k: string)
    requires n <= |data|
    ensures k in SeenKeys(data, n) <==> k != "" && exists j :: 0 <= j < n && data[j].chinese == k
  {
    if n > 0 {
      SeenKeysMembership(data, n - 1, k);
    }
  }

  /** `uniqueData`: the kept records, as an order-preserving subsequence of the input. */
  function Unique(data: seq<Card>): (r: seq<Card>)
    ensures |r| == |KeptBefore(data, |data|)|
    ensures forall k :: 0 <= k < |r| ==> r[k] == data[KeptBefore(data, |data|)[k]]
    ensures IsSubsequence(r, data)
  {
    PickSubsequence(data, KeptBefore(data, |data|));
    Pick(data, KeptBefore(data, |data|))
  }

  /**
   * The script's loop: a record with a truthy, unseen `chiński` is kept and its
   * key recorded; one with a falsy `chiński` is kept; the rest are dropped. The
   * reported count is the number of records dropped, which is the number of
   * repeats of a key.
   */
  method Deduplicate(data: seq<Card>) returns (uniqueData: seq<Card>, removed: int)
    ensures uniqueData == Unique(data)
    ensures removed == |data| - |uniqueData|
    ensures removed == |RepeatsBefore(data, |data|)| >= 0
  {
    var seen: set<string> := {};
    uniqueData := [];
    for i := 0 to |data|
      invariant seen == SeenKeys(data, i)
      invariant uniqueData == Pick(data, KeptBefore(data, i))
    {
      var item := data[i];
      KeptIffUnseen(data, i);
      PickSnoc(data, KeptBefore(data, i), i);
      assert SeenKeys(data, i + 1) == seen + (if item.chinese != "" then {item.chinese} else {});
      if item.chinese != "" && item.chinese !in seen {
        seen := seen + {item.chinese};
        uniqueData := uniqueData + [item];
      } else if item.chinese == "" {
        uniqueData := uniqueData + [item];
      } else {
        assert seen + {item.chinese} == seen;
      }
    }
    removed := |data| - |uniqueData|;
    CountsBefore(data, |data|);
  }

  /** Each record is either kept or a repeat, never both. */
  lemma {:induction false} CountsBefore(data: seq<Card>, n: nat)
    requires n <= |data|
    ensures |KeptBefore(data, n)| + |RepeatsBefore(data, n)| == n
  {
    if n > 0 {
      CountsBefore(data, n - 1);
      KeptOrRepeat(data, n - 1);
    }
  }

  /** A record is kept exactly when it is not a repeat. */
  lemma KeptOrRepeat(data: seq<Card>, i: nat)
    requires i < |data|
    ensures Kept(data, i) <==> !Repeat(data, i)
  {
    if !Kept(data, i) {
      var j :| 0 <= j < i && data[j].chinese == data[i].chinese;
      assert Repeat(data, i);
    }
  }

  /** A record is kept exactly when its key is falsy or not yet in the `seen` set. */
  lemma KeptIffUnseen(data: seq<Card>, i: nat)
    requires i < |data|
    ensures Kept(data, i) <==> data[i].chinese == "" || data[i].chinese !in SeenKeys(data, i)
  {
    SeenKeysMembership(data, i, data[i].chinese);
    if data[i].chinese != "" && data[i].chinese in SeenKeys(data, i) {
      var j :| 0 <= j < i && data[j].chinese == data[i].chinese;
      assert !Kept(data, i);
    }
  }

  /** The kept records with a truthy `chiński` carry pairwise distinct keys. */
  lemma UniqueKeysDistinct(data: seq<Card>)
    ensures forall a, b :: 0 <= a < b < |Unique(data)| && Unique(data)[a].chinese != "" ==>
      Unique(data)[a].chinese != Unique(data)[b].chinese
  {
    var u := Unique(data);
    var idx := KeptBefore(data, |data|);
    BeforeMembers(data, |data|);
    forall a, b | 0 <= a < b < |u| && u[a].chinese != "" ensures u[a].chinese != u[b].chinese {
      assert idx[a] < idx[b];
      assert idx[b] in idx;
      assert Kept(data, idx[b]);
    }
  }

  /** The card records as parsed JSON values. */
  function Records(data: seq<Card>): (r: seq<CleanupDuplicates.Json>)
    ensures |r| == |data|
    ensures forall i :: 0 <= i < |data| ==> r[i] == CleanupDuplicates.Record(data[i])
  {
    seq(|data|, i requires 0 <= i < |data| => CleanupDuplicates.Record(data[i]))
  }

  /**
   * On a flat list of records without falsy items, this script and
   * `cleanup_duplicates.js` keep exactly the same records.
   */
  lemma AgreesWithCleanup(data: seq<Card>)
    ensures CleanupDuplicates.Unique(CleanupDuplicates.Flatten(Records(data))) == Records(Unique(data))
  {
    var json := Records(data);
    CleanupDuplicates.FlattenFlat(json);
    KeptAgree(data, |data|);
  }

  lemma {:induction false} KeptAgree(data: seq<Card>, n: nat)
    requires n <= |data|
    ensures CleanupDuplicates.KeptBefore(Records(data), n) == KeptBefore(data, n)
  {
    if n > 0 {
      KeptAgree(data, n - 1);
      KeptSame(data, n - 1);
    }
  }

  /** A position survives in one script exactly when it survives in the other. */
  lemma KeptSame(data: seq<Card>, i: nat)
    requires i < |data|
    ensures CleanupDuplicates.Kept(Records(data), i) == Kept(data, i)
  {
    var json := Records(data);
    assert forall j :: 0 <= j <= i ==> CleanupDuplicates.Key(json[j]) == data[j].chinese;
  }
}

=== FILE: options.dfy ===
/** The optional value: JavaScript's `null`/`undefined` next to a present value. */
module Options {

  datatype Option<+T> = None | Some(value: T)
}

=== FILE: popup.dfy ===
/**
 * The dictionary popup (`src/components/SelectionPopup.js`): for the text a
 * drag selected, the first three flashcards whose `chiński` is that text or
 * contains it.
 */
module SelectionPopup {
  import opened Options
  import opened Seqs
  import opened Cards

  /** `card.chiński === text || card.chiński.includes(text)`. */
  predicate Qualifies(text: string, card: Card) {
    card.chinese == text || Includes(card.chinese, text)
  }

  function QualifiesFor(text: string): Card -> bool {
    card => Qualifies(text, card)
  }

  /** The first clause adds nothing: a card qualifies exactly when its `chiński` contains the text. */
  lemma QualifiesIffContains(text: string, card: Card)
    ensures Qualifies(text, card) <==> OccursIn(text, card.chinese)
    ensures card.chinese == text ==> Qualifies(text, card)
  {
    if card.chinese == text {
      OccursInSelf(text);
    }
  }

  /** The largest number of matches the popup lists. */
  const MAX_MATCHES: nat := 3

  /**
   * The popup for a selection: nothing for a missing selection or an empty
   * text; otherwise the dictionary entries that qualify, cut to the first three.
   */
  function Lookup(selection: Option<string>, dictionary: seq<Card>): (r: Option<seq<Card>>)
    ensures selection.None? || selection.value == "" <==> r.None?
    ensures r.Some? ==> |r.value| <= MAX_MATCHES
    ensures r.Some? ==> forall c :: c in r.value ==> c in dictionary && OccursIn(selection.value, c.chinese)
  {
    if selection.None? || selection.value == "" then None
    else
      var qualifying := Filter(dictionary, QualifiesFor(selection.value));
      var matches := Take(qualifying, MAX_MATCHES);
      assert forall c :: c in matches ==> c in dictionary && OccursIn(selection.value, c.chinese) by {
        forall c | c in matches ensures c in dictionary && OccursIn(selection.value, c.chinese) {
          assert c in qualifying;
          QualifiesIffContains(selection.value, c);
        }
      }
      Some(matches)
  }

  /**
   * The matches are the first qualifying entries in dictionary order: an
   * entry that qualifies is listed when fewer than three entries before it
   * qualify, and the list keeps the dictionary's order.
   */
  lemma LookupFirstMatches(text: string, dictionary: seq<Card>, i: nat)
    requires text != "" && i < |dictionary|
    requires Qualifies(text, dictionary[i])
    ensures var r := Lookup(Some(text), dictionary).value;
      |Filter(dictionary[..i], QualifiesFor(text))| < MAX_MATCHES ==> dictionary[i] in r
    ensures IsSubsequence(Lookup(Some(text), dictionary).value, Filter(dictionary, QualifiesFor(text)))
  {
    var q := QualifiesFor(text);
    var before := Filter(dictionary[..i], q);
    assert dictionary == dictionary[..i] + dictionary[i..];
    FilterAppend(dictionary[..i], dictionary[i..], q);
    assert dictionary[i..] == [dictionary[i]] + dictionary[i + 1..];
    FilterAppend([dictionary[i]], dictionary[i + 1..], q);
    var qualifying := Filter(dictionary, q);
    assert qualifying[|before|] == dictionary[i];
    PrefixSubsequence(qualifying, |Lookup(Some(text), dictionary).value|);
  }

  /** A prefix of a list is a subsequence of it. */
  lemma {:induction false} PrefixSubsequence<T>(s: seq<T>, n: nat)
    requires n <= |s|
    ensures IsSubsequence(s[..n], s)
  {
    if s == [] {
    } else if n == 0 {
      EmptySubsequence(s);
    } else {
      PrefixSubsequence(s[1..], n - 1);
      assert s[..n][1..] == s[1..][..n - 1];
    }
  }

  /** With three or fewer qualifying entries, all of them are listed. */
  lemma LookupAllWhenFew(text: string, dictionary: seq<Card>)
    requires text != ""
    requires |Filter(dictionary, QualifiesFor(text))| <= MAX_MATCHES
    ensures Lookup(Some(text), dictionary) == Some(Filter(dictionary, QualifiesFor(text)))
  {
    var qualifying := Filter(dictionary, QualifiesFor(text));
    assert qualifying[..|qualifying|] == qualifying;
  }
}

=== FILE: quiz.dfy ===
/**
 * The multiple-choice quiz (`src/components/Quiz.js`): the options for a card
 * are the card itself and distractors drawn without replacement from the
 * cards with a different `chiński`, in random order; the first click on an
 * option latches the answer until the card or the configuration changes.
 */
module Quiz {
  import opened Options
  import opened Seqs
  import opened Cards

  /** The `config` prop: number of options, question type and answer type. */
  datatype Config = Config(optionsCount: int, questionType: string, answerType: string)

  /** The default `config`. */
  const DEFAULT_CONFIG: Config := Config(4, "chinese", "polish")

  /** `config.optionsCount || 4`: a zero (falsy) count means 4. */
  function OptionsCount(config: Config): (n: int)
    ensures n != 0
    ensures config.optionsCount != 0 ==> n == config.optionsCount
  {
    if config.optionsCount == 0 then 4 else config.optionsCount
  }

  /** `config.questionType || 'chinese'`. */
  function QuestionType(config: Config): (t: string)
    ensures t != ""
    ensures config.questionType != "" ==> t == config.questionType
  {
    if config.questionType == "" then "chinese" else config.questionType
  }

  /** `config.answerType || 'polish'`. */
  function AnswerType(config: Config): (t: string)
    ensures t != ""
    ensures config.answerType != "" ==> t == config.answerType
  {
    if config.answerType == "" then "polish" else config.answerType
  }

  /** The type name of a field, as the configuration spells it. */
  function TypeName(f: Field): string {
    match f
    case Chinese => "chinese"
    case Pinyin => "pinyin"
    case Polish => "polish"
  }

  /** The field a type name shows; an unknown name shows `chiński`. */
  function FieldOfType(t: string): (f: Field)
    ensures (forall g :: TypeName(g) != t) ==> f == Chinese
  {
    assert TypeName(Pinyin) == "pinyin" && TypeName(Polish) == "polish";
    if t == "pinyin" then Pinyin else if t == "polish" then Polish else Chinese
  }

  /** Each type name shows its own field. */
  lemma FieldOfTypeName(f: Field)
    ensures FieldOfType(TypeName(f)) == f
  {
  }

  /** `getDisplayText`: `'???'` for a missing card, otherwise the text of the field the type names. */
  function GetDisplayText(card: Option<Card>, t: string): (r: string)
    ensures card.None? ==> r == "???"
    ensures card.Some? ==> r == Text(card.value, FieldOfType(t))
    ensures card.Some? && (forall g :: TypeName(g) != t) ==> r == card.value.chinese
  {
    if card.None? then "???"
    else if t == "chinese" then card.value.chinese
    else if t == "pinyin" then card.value.pinyin
    else if t == "polish" then card.value.polish
    else card.value.chinese
  }

  /** `getQuestionLabel`. */
  function QuestionLabel(t: string): (s: string)
    ensures s == "Pytanie" <==> forall g :: TypeName(g) != t
  {
    assert TypeName(Chinese) == "chinese" && TypeName(Pinyin) == "pinyin" && TypeName(Polish) == "polish";
    if t == "chinese" then "Co to znaczy?"
    else if t == "pinyin" then "Jaki to znak/znaczenie?"
    else if t == "polish" then "Jaki to znak?"
    else "Pytanie"
  }

  /** The three known types have three different labels. */
  lemma QuestionLabelsDistinct(f: Field, g: Field)
    requires f != g
    ensures QuestionLabel(TypeName(f)) != QuestionLabel(TypeName(g))
  {
  }

  /** A card is a possible distractor for `current`: its `chiński` differs. */
  predicate Differs(current: Card, c: Card) {
    c.chinese != current.chinese
  }

  function DiffersFrom(current: Card): Card -> bool {
    c => Differs(current, c)
  }

  /** `potentialDistractors` before the draw: the cards whose `chiński` differs from the current card's. */
  function Pool(all: seq<Card>, current: Card): (r: seq<Card>)
    ensures forall c :: c in r <==> c in all && Differs(current, c)
  {
    Filter(all, DiffersFrom(current))
  }

  function Min(a: int, b: int): int {
    if a <= b then a else b
  }

  function Max(a: int, b: int): int {
    if a <= b then b else a
  }

  /** `count`: `min(optionsCount - 1, allCards.length - 1)`, the number of distractors aimed for. */
  function Target(optionsCount: int, all: seq<Card>): int {
    Min(optionsCount - 1, |all| - 1)
  }

  /** An option is the right answer for `current`: same `chiński`. */
  predicate IsAnswer(current: Card, option: Card) {
    option.chinese == current.chinese
  }

  function AnswerTo(current: Card): Card -> bool {
    c => IsAnswer(current, c)
  }

  /**
   * What `generateOptions` may give for `card`: no options without cards;
   * otherwise the card and a draw without replacement from its pool of
   * `min(max(count, 0), pool size)` distractors, in some order.
   */
  ghost predicate OptionsFor(card: Card, cards: Option<seq<Card>>, optionsCount: int, options: seq<Card>) {
    if cards.None? || cards.value == [] then options == []
    else exists distractors: seq<Card> ::
      && |distractors| == Min(Max(Target(optionsCount, cards.value), 0), |Pool(cards.value, card)|)
      && multiset(distractors) <= multiset(Pool(cards.value, card))
      && multiset(options) == multiset([card] + distractors)
  }

  /**
   * Options as `generateOptions` draws them hold the card, and it is their
   * only right answer.
   */
  lemma OptionsForOneRight(card: Card, cards: seq<Card>, optionsCount: int, options: seq<Card>)
    requires OptionsFor(card, Some(cards), optionsCount, options) && cards != []
    ensures card in options
    ensures |Filter(options, AnswerTo(card))| == 1
    ensures forall o :: o in options && IsAnswer(card, o) ==> o == card
  {
    var distractors: seq<Card> :|
      && |distractors| == Min(Max(Target(optionsCount, cards), 0), |Pool(cards, card)|)
      && multiset(distractors) <= multiset(Pool(cards, card))
      && multiset(options) == multiset([card] + distractors);
    forall d | d in distractors ensures Differs(card, d) {
      assert d in multiset(Pool(cards, card));
    }
    OneRightAnswer(card, options, distractors);
  }

  /**
   * The options for `currentCard`: none without cards; otherwise the drawn
   * distractors and the card itself, in a random order.
   */
  method GenerateOptions(currentCard: Card, allCards: Option<seq<Card>>, optionsCount: int, picks: seq<nat>)
    returns (options: seq<Card>, distractors: seq<Card>)
    ensures allCards.None? || allCards.value == [] ==> options == [] && distractors == []
    ensures allCards.Some? && allCards.value != [] ==>
      var pool := Pool(allCards.value, currentCard);
      && |distractors| == Min(Max(Target(optionsCount, allCards.value), 0), |pool|)
      && multiset(distractors) <= multiset(pool)
      && multiset(options) == multiset([currentCard] + distractors)
    ensures forall d :: d in distractors ==> Differs(currentCard, d)
    ensures OptionsFor(currentCard, allCards, optionsCount, options)
    ensures allCards.Some? && allCards.value != [] ==> currentCard in options
  {
    if allCards.None? || |allCards.value| == 0 {
      return [], [];
    }
    var all := allCards.value;
    distractors := DrawDistractors(currentCard, Pool(all, currentCard), Min(optionsCount - 1, |all| - 1));
    var allOptions := [currentCard] + distractors;
    options := Shuffled(allOptions, picks);
    ShuffledPermutes(allOptions, picks);
    OneRightAnswer(currentCard, options, distractors);
  }

  /**
   * The draw loop: distractors taken one at a time at an arbitrary index of
   * the shrinking pool and spliced out, until `count` are drawn or the pool
   * is empty.
   */
  method DrawDistractors(currentCard: Card, pool: seq<Card>, count: int) returns (distractors: seq<Card>)
    requires forall c :: c in pool ==> Differs(currentCard, c)
    ensures |distractors| == Min(Max(count, 0), |pool|)
    ensures multiset(distractors) <= multiset(pool)
    ensures forall d :: d in distractors ==> Differs(currentCard, d)
  {
    distractors := [];
    var potential := pool;
    while |distractors| < count && |potential| > 0
      invariant multiset(distractors) + multiset(potential) == multiset(pool)
      invariant |distractors| + |potential| == |pool|
      invariant |distractors| <= Max(count, 0)
      invariant forall c :: c in potential ==> Differs(currentCard, c)
      invariant forall d :: d in distractors ==> Differs(currentCard, d)
      decreases |potential|
    {
      var randomIndex: nat :| randomIndex < |potential|;
      Draw(currentCard, potential, randomIndex);
      distractors := distractors + [potential[randomIndex]];
      potential := RemoveAt(potential, randomIndex);
    }
  }

  /**
   * One draw moves the card at `k` from the pool to the distractors: the two
   * together hold the same cards, and the pool keeps only possible distractors.
   */
  lemma Draw(current: Card, potential: seq<Card>, k: nat)
    requires k < |potential|
    requires forall c :: c in potential ==> Differs(current, c)
    ensures multiset(RemoveAt(potential, k)) + multiset{potential[k]} == multiset(potential)
    ensures Differs(current, potential[k])
    ensures forall c :: c in RemoveAt(potential, k) ==> Differs(current, c)
  {
    RemoveAtMultiset(potential, k);
    forall c | c in RemoveAt(potential, k) ensures Differs(current, c) {
      assert c in multiset(potential);
    }
  }

  /** Filtering commutes with permuting: two permutations keep the same elements. */
  lemma FilterPermutation(s: seq<Card>, t: seq<Card>, p: Card -> bool)
    requires multiset(s) == multiset(t)
    ensures multiset(Filter(s, p)) == multiset(Filter(t, p))
    ensures |Filter(s, p)| == |Filter(t, p)|
  {
    FilterMultiset(s, p);
    FilterMultiset(t, p);
    assert multiset(Filter(s, p)) == multiset(Filter(t, p));
    assert |multiset(Filter(s, p))| == |multiset(Filter(t, p))|;
  }

  /**
   * Whatever the draws, exactly one option is the right answer, and it is the
   * current card: the options hold the card once and distractors only.
   */
  lemma OneRightAnswer(currentCard: Card, options: seq<Card>, distractors: seq<Card>)
    requires multiset(options) == multiset([currentCard] + distractors)
    requires forall d :: d in distractors ==> Differs(currentCard, d)
    ensures Filter(options, AnswerTo(currentCard)) != []
    ensures |Filter(options, AnswerTo(currentCard))| == 1
    ensures currentCard in options
    ensures forall o :: o in options && IsAnswer(currentCard, o) ==> o == currentCard
  {
    var p := AnswerTo(currentCard);
    FilterPermutation(options, [currentCard] + distractors, p);
    FilterKeepsNone(distractors, p);
    assert ([currentCard] + distractors)[1..] == distractors;
    assert currentCard in multiset(options);
    forall o | o in options && IsAnswer(currentCard, o) ensures o == currentCard {
      assert o in multiset([currentCard] + distractors);
      assert o in [currentCard] + distractors;
    }
  }

  /** The `config` in force: the prop when given, the default object otherwise. */
  function EffectiveConfig(config: Option<Config>): (c: Config)
    ensures config.None? ==> c == DEFAULT_CONFIG
    ensures config.Some? ==> c == config.value
  {
    if config.Some? then config.value else DEFAULT_CONFIG
  }

  /** The answer latch: `selectedOption` and `isCorrect`. */
  datatype Latch = Latch(selected: Option<Card>, correct: Option<bool>)

  const UNANSWERED: Latch := Latch(None, None)

  /**
   * `handleOptionClick` on the latch: the first click latches the option and
   * whether it is right; the flag says that `onNext` is scheduled, which
   * happens for a first, right answer only. A latched answer ignores clicks.
   */
  function Click(l: Latch, current: Card, option: Card): (r: (Latch, bool))
    ensures r.0.selected.Some?
    ensures l.selected.Some? ==> r.0 == l
    ensures l.selected.None? ==> r.0.selected == Some(option) && r.0.correct == Some(IsAnswer(current, option))
    ensures r.1 <==> l.selected.None? && IsAnswer(current, option)
  {
    if l.selected.Some? then (l, false)
    else (Latch(Some(option), Some(IsAnswer(current, option))), IsAnswer(current, option))
  }

  /**
   * The reset effect as written: its dependency `config` is compared by
   * reference, and a `config` that is not passed is the default parameter, a
   * new object on every render, so it counts as changed after every render.
   * (A passed `config` is taken to be the same object exactly when it has the
   * same value.)
   */
  predicate ConfigChangedAsWritten(prev: Option<Config>, now: Option<Config>) {
    prev.None? || now.None? || prev != now
  }

  /** The reset effect as intended: the configuration in force has changed. */
  predicate ConfigChanged(prev: Option<Config>, now: Option<Config>) {
    EffectiveConfig(prev) != EffectiveConfig(now)
  }

  /** The latch after a render: cleared when the effect runs, kept otherwise. */
  function AfterRender(l: Latch, cardChanged: bool, configChanged: bool): (r: Latch)
    ensures cardChanged || configChanged ==> r == UNANSWERED
    ensures !cardChanged && !configChanged ==> r == l
  {
    if cardChanged || configChanged then UNANSWERED else l
  }

  /**
   * As written, without a `config` prop: the re-render a right click causes
   * clears the latch, so a second click on the right answer is accepted and
   * schedules `onNext` a second time.
   */
  lemma DoubleScheduleAsWritten(current: Card)
    ensures var (l1, first) := Click(UNANSWERED, current, current);
      var l2 := AfterRender(l1, false, ConfigChangedAsWritten(None, None));
      var (l3, second) := Click(l2, current, current);
      first && l2 == UNANSWERED && second
  {
  }

  /**
   * As intended: re-rendering with the same card and configuration keeps the
   * latch, so once an option is chosen no later click schedules `onNext`.
   */
  lemma LatchHolds(current: Card, option: Card, option': Card, config: Option<Config>)
    ensures var (l1, first) := Click(UNANSWERED, current, option);
      var l2 := AfterRender(l1, false, ConfigChanged(config, config));
      var (l3, second) := Click(l2, current, option');
      l2 == l1 && l3 == l1 && !second && (first <==> IsAnswer(current, option))
  {
  }

  /** The quiz for one card: its options and the latched answer. */
  class QuizState {
    var currentCard: Card
    var allCards: Option<seq<Card>>
    /** The `config` prop as passed; `None` when it is not given. */
    var config: Option<Config>
    var options: seq<Card>
    var selectedOption: Option<Card>
    var isCorrect: Option<bool>

    function Latched(): Latch
      reads this
    {
      Latch(selectedOption, isCorrect)
    }

    ghost predicate Valid()
      reads this
    {
      && (selectedOption.None? <==> isCorrect.None?)
      && (selectedOption.Some? ==> isCorrect == Some(IsAnswer(currentCard, selectedOption.value)))
      && OptionsFor(currentCard, allCards, OptionsCount(EffectiveConfig(config)), options)
    }

    /** A quiz as mounted: options generated, nothing selected. */
    constructor (card: Card, cards: Option<seq<Card>>, cfg: Option<Config>, picks: seq<nat>)
      ensures Valid()
      ensures currentCard == card && allCards == cards && config == cfg
      ensures selectedOption == None && isCorrect == None
      ensures OptionsFor(card, cards, OptionsCount(EffectiveConfig(cfg)), options)
      ensures cards.Some? && cards.value != [] ==> currentCard in options
    {
      var opts, ds := GenerateOptions(card, cards, OptionsCount(EffectiveConfig(cfg)), picks);
      currentCard, allCards, config := card, cards, cfg;
      options, selectedOption, isCorrect := opts, None, None;
    }

    /**
     * `handleOptionClick`: the first click latches the option and whether it
     * is right; `scheduleNext` says that `onNext` is set to run after a second,
     * which happens only for a first, right answer. Later clicks change nothing.
     */
    method HandleOptionClick(option: Card) returns (scheduleNext: bool)
      requires Valid()
      modifies this`selectedOption, this`isCorrect
      ensures Valid()
      ensures old(selectedOption).Some? ==> selectedOption == old(selectedOption) && isCorrect == old(isCorrect) && !scheduleNext
      ensures old(selectedOption).None? ==> selectedOption == Some(option)
      ensures old(selectedOption).None? ==> (isCorrect == Some(true) <==> option.chinese == currentCard.chinese)
      ensures scheduleNext <==> old(selectedOption).None? && IsAnswer(currentCard, option)
      ensures (Latched(), scheduleNext) == Click(old(Latched()), currentCard, option)
    {
      if selectedOption.Some? {
        return false;
      }
      var correct := option.chinese == currentCard.chinese;
      selectedOption, isCorrect := Some(option), Some(correct);
      scheduleNext := correct;
    }

    /**
     * A new render with a current card, deck and `config` prop: the options
     * are drawn again when the card, the deck or the option count changed,
     * and the reset effect clears the answer when the card or the
     * configuration in force changed.
     */
    method Update(card: Card, cards: Option<seq<Card>>, cfg: Option<Config>, picks: seq<nat>)
      requires Valid()
      modifies this
      ensures Valid()
      ensures currentCard == card && allCards == cards && config == cfg
      ensures var regenerate := card != old(currentCard) || cards != old(allCards) ||
          OptionsCount(EffectiveConfig(cfg)) != OptionsCount(EffectiveConfig(old(config)));
        && (!regenerate ==> options == old(options))
        && (regenerate ==> OptionsFor(card, cards, OptionsCount(EffectiveConfig(cfg)), options))
        && (regenerate && cards.Some? && cards.value != [] ==> currentCard in options)
      ensures Latched() == AfterRender(old(Latched()), card != old(currentCard), ConfigChanged(old(config), cfg))
      ensures card == old(currentCard) && EffectiveConfig(cfg) == EffectiveConfig(old(config)) ==>
        selectedOption == old(selectedOption) && isCorrect == old(isCorrect)
    {
      var count := OptionsCount(EffectiveConfig(cfg));
      if card != currentCard || cards != allCards || count != OptionsCount(EffectiveConfig(config)) {
        var opts, ds := GenerateOptions(card, cards, count, picks);
        options := opts;
      }
      if card != currentCard || ConfigChanged(config, cfg) {
        selectedOption, isCorrect := None, None;
      }
      currentCard, allCards, config := card, cards, cfg;
    }
  }
}

=== FILE: selectable.dfy ===
/**
 * Drag selection over the characters of a text (`src/components/SelectableText.js`):
 * a pointer press anchors a one-character range, moves stretch it between
 * the anchor and the character under the pointer, and the release reports
 * the selected substring to the listener.
 */
module SelectableText {
  import opened Options

  /** A selection `{ start, end }` of character indices, both ends included. */
  datatype Range = Range(start: nat, end: nat)

  /** Index `k` lies in the range. */
  predicate Covers(r: Range, k: nat) {
    r.start <= k <= r.end
  }

  /** What a handler reports through `onSelectionChange`. */
  datatype Report = Silent | Cleared | Selected(text: string, range: Range)

  function Min(a: nat, b: nat): nat {
    if a <= b then a else b
  }

  function Max(a: nat, b: nat): nat {
    if a <= b then b else a
  }

  /** An argument of `substring`, clamped to the string. */
  function Clamp(x: int, len: nat): (c: nat)
    ensures c <= len
    ensures 0 <= x <= len ==> c == x
  {
    if x < 0 then 0 else if x > len then len else x
  }

  /**
   * `s.substring(a, b)`: the arguments are clamped to `0 .. |s|` and taken
   * in increasing order.
   */
  function Substring(s: string, a: int, b: int): (r: string)
    ensures |r| <= |s|
  {
    var x := Clamp(a, |s|);
    var y := Clamp(b, |s|);
    if x <= y then s[x..y] else s[y..x]
  }

  /** The text a release reports: `text.substring(start, end + 1)`. */
  function SelectedText(text: string, sel: Range): string {
    Substring(text, sel.start, sel.end + 1)
  }

  /**
   * For a range inside the text the reported text is the characters
   * `start .. end`, one per index; a range that runs past the end is cut at
   * the end, and one that starts past it gives the empty string.
   */
  lemma SelectedTextSpan(text: string, sel: Range)
    requires sel.start <= sel.end
    ensures sel.end < |text| ==> |SelectedText(text, sel)| == sel.end - sel.start + 1
    ensures sel.start < |text| ==> SelectedText(text, sel) == text[sel.start..Min(sel.end + 1, |text|)]
    ensures SelectedText(text, sel) == "" <==> sel.start >= |text|
  {
  }

  /** `found` in `handlePointerUp`: some character span of the text has an index in the range. */
  predicate Found(sel: Range, len: nat) {
    exists idx: nat :: idx < len && Covers(sel, idx)
  }

  /** A range overlaps the characters exactly when it starts inside the text. */
  lemma FoundIff(sel: Range, len: nat)
    requires sel.start <= sel.end
    ensures Found(sel, len) <==> sel.start < len
  {
    if sel.start < len {
      assert Covers(sel, sel.start);
    }
  }

  /** `isSelected` for the character at index `i`. */
  predicate IsHighlighted(sel: Option<Range>, i: nat) {
    sel.Some? && Covers(sel.value, i)
  }

  /**
   * The characters drawn highlighted are the reported text: for a range
   * inside the text, index `k` is highlighted exactly when it is one of the
   * `|SelectedText|` indices from `start`, and it holds that text's character.
   */
  lemma HighlightIsSelectedText(text: string, sel: Range)
    requires sel.start <= sel.end < |text|
    ensures forall k: nat :: k < |text| ==>
      (IsHighlighted(Some(sel), k) <==> sel.start <= k < sel.start + |SelectedText(text, sel)|)
    ensures forall k: nat :: k < |text| && IsHighlighted(Some(sel), k) ==> SelectedText(text, sel)[k - sel.start] == text[k]
  {
    SelectedTextSpan(text, sel);
  }

  /** `roundedClass` for the character at index `i`. */
  function CornerClass(sel: Option<Range>, i: nat): string {
    if IsHighlighted(sel, i) then
      if sel.value.start == sel.value.end then "rounded-md"
      else if i == sel.value.start then "rounded-l-md"
      else if i == sel.value.end then "rounded-r-md"
      else "rounded-none"
    else "rounded-none"
  }

  /**
   * A one-character selection is rounded all round; a longer one is rounded
   * on the left at its start and on the right at its end only; inner and
   * unselected characters are not rounded.
   */
  lemma CornerClassCases(sel: Option<Range>, i: nat)
    ensures CornerClass(sel, i) == "rounded-md" <==> IsHighlighted(sel, i) && sel.value.start == sel.value.end
    ensures CornerClass(sel, i) == "rounded-l-md" <==> IsHighlighted(sel, i) && sel.value.start < sel.value.end && i == sel.value.start
    ensures CornerClass(sel, i) == "rounded-r-md" <==> IsHighlighted(sel, i) && sel.value.start < sel.value.end && i == sel.value.end
    ensures CornerClass(sel, i) == "rounded-none" <==> !IsHighlighted(sel, i) || sel.value.start < i < sel.value.end
  {
  }

  /** One selectable text: its characters, its local selection and the drag refs. */
  class SelectableText {
    var text: string
    /** The `selection` state; `None` is `null`. */
    var selection: Option<Range>
    var isDragging: bool
    var dragStartIndex: Option<nat>
    /** The id this component puts on the selections it reports. */
    const componentId: string
    /** Whether an `onSelectionChange` listener is given. */
    const hasListener: bool

    /** Ranges are ordered, and while dragging the anchor is set and lies in the range. */
    ghost predicate Valid()
      reads this
    {
      && (selection.Some? ==> selection.value.start <= selection.value.end)
      && (isDragging ==> dragStartIndex.Some?)
      && (isDragging && selection.Some? ==> selection.value.start <= dragStartIndex.value <= selection.value.end)
    }

    constructor (t: string, id: string, listener: bool)
      ensures Valid()
      ensures text == t && componentId == id && hasListener == listener
      ensures selection == None && !isDragging && dragStartIndex == None
    {
      text, componentId, hasListener := t, id, listener;
      selection, isDragging, dragStartIndex := None, false, None;
    }

    /**
     * The reset effect, run after the text or the app's active selection
     * changed: the local selection is cleared unless the active selection
     * is this component's own.
     */
    method SyncActiveSelection(newText: string, active: Option<string>)
      requires Valid()
      modifies this`text, this`selection
      ensures Valid()
      ensures text == newText
      ensures active.None? || active.value != componentId ==> selection == None
      ensures active == Some(componentId) ==> selection == old(selection)
    {
      text := newText;
      if active.None? || active.value != componentId {
        selection := None;
      }
    }

    /**
     * `handlePointerDown`: `primary` is false for a mouse button other than
     * the left one, which is ignored; `index` is the character under the
     * pointer. A press on a character anchors a one-character selection there
     * and clears the app's selection.
     */
    method PointerDown(primary: bool, index: Option<nat>) returns (report: Report)
      requires Valid()
      modifies this`isDragging, this`dragStartIndex, this`selection
      ensures Valid()
      ensures primary && index.Some? ==>
        && isDragging && dragStartIndex == index
        && selection == Some(Range(index.value, index.value))
        && report == (if hasListener then Cleared else Silent)
      ensures !(primary && index.Some?) ==>
        isDragging == old(isDragging) && dragStartIndex == old(dragStartIndex) && selection == old(selection) && report == Silent
    {
      report := Silent;
      if !primary {
        return;
      }
      if index.Some? {
        isDragging, dragStartIndex := true, index;
        selection := Some(Range(index.value, index.value));
        if hasListener {
          report := Cleared;
        }
      }
    }

    /**
     * `handlePointerMove`: while dragging, the selection runs from the
     * smaller to the larger of the anchor and the character under the pointer.
     */
    method PointerMove(index: Option<nat>)
      requires Valid()
      modifies this`selection
      ensures Valid()
      ensures isDragging && index.Some? ==>
        selection == Some(Range(Min(dragStartIndex.value, index.value), Max(dragStartIndex.value, index.value)))
      ensures !(isDragging && index.Some?) ==> selection == old(selection)
    {
      if !isDragging {
        return;
      }
      if index.Some? {
        var anchor := dragStartIndex.value;
        selection := Some(Range(Min(anchor, index.value), Max(anchor, index.value)));
      }
    }

    /**
     * `handlePointerUp` (and `handlePointerCancel`): ends the drag; with a
     * listener and a selection it reports the selected text when the range
     * starts inside the text, and otherwise clears both selections.
     */
    method PointerUp() returns (report: Report)
      requires Valid()
      modifies this`isDragging, this`selection
      ensures Valid()
      ensures !isDragging
      ensures !old(isDragging) || old(selection).None? || !hasListener ==> selection == old(selection) && report == Silent
      ensures old(isDragging) && old(selection).Some? && hasListener ==>
        var sel := old(selection).value;
        && (sel.start < |text| ==> report == Selected(SelectedText(text, sel), sel) && selection == old(selection))
        && (sel.start >= |text| ==> report == Cleared && selection == None)
    {
      report := Silent;
      if !isDragging {
        return;
      }
      isDragging := false;
      if selection.Some? && hasListener {
        var sel := selection.value;
        var selectedText := Substring(text, sel.start, sel.end + 1);
        FoundIff(sel, |text|);
        SelectedTextSpan(text, sel);
        if Found(sel, |text|) && selectedText != "" {
          report := Selected(selectedText, sel);
        } else {
          report := Cleared;
          selection := None;
        }
      }
    }
  }

  /**
   * A drag's range is exactly the characters between the anchor and the
   * pointer, whichever side the pointer is on, so it always holds the anchor.
   */
  lemma DragRange(anchor: nat, index: nat)
    ensures var r := Range(Min(anchor, index), Max(anchor, index));
      && r.start <= anchor <= r.end
      && forall k: nat :: Covers(r, k) <==> (anchor <= k <= index || index <= k <= anchor)
  {
  }
}

=== FILE: seqs.dfy ===
/**
 * Generic sequence routines the application uses through JavaScript's array and
 * string built-ins: `filter`, `findIndex`, `includes`, `slice`, the
 * `prev.includes(x) ? prev.filter(...) : [...prev, x]` membership toggle,
 * `[...new Set(xs)]`, `[...Array(n).keys()]`, `sort` with a comparator and the
 * comparator shuffle `sort(() => Math.random() - 0.5)`.
 */
module Seqs {

  /** `a` is obtained from `b` by deleting elements: an order-preserving subsequence. */
  predicate IsSubsequence<T(==)>(a: seq<T>, b: seq<T>)
    decreases |b|
  {
    if b == [] then a == []
    else (a != [] && a[0] == b[0] && IsSubsequence(a[1..], b[1..])) || IsSubsequence(a, b[1..])
  }

  predicate NoDuplicates<T(==)>(s: seq<T>) {
    forall i, j :: 0 <= i < j < |s| ==> s[i] != s[j]
  }

  predicate StrictlyIncreasing(s: seq<int>) {
    forall i, j :: 0 <= i < j < |s| ==> s[i] < s[j]
  }

  /** `[lo, lo + 1, ..., hi - 1]`; `Range(0, n)` is `[...Array(n).keys()]`. */
  function Range(lo: nat, hi: nat): (r: seq<nat>)
    ensures |r| == if lo <= hi then hi - lo else 0
    ensures forall k :: 0 <= k < |r| ==> r[k] == lo + k
    decreases hi - lo
  {
    if lo >= hi then [] else [lo] + Range(lo + 1, hi)
  }

  /** The members of `Range(lo, hi)` are exactly `lo .. hi-1`. */
  lemma RangeMembers(lo: nat, hi: nat)
    ensures forall x :: x in Range(lo, hi) <==> lo <= x < hi
  {
    var r := Range(lo, hi);
    forall x | lo <= x < hi ensures x in r {
      assert r[x - lo] == x;
    }
  }

  /** A sequence of positions that lists each of `0 .. n-1` exactly once. */
  ghost predicate IsPermutationOf(order: seq<nat>, n: nat) {
    multiset(order) == multiset(Range(0, n))
  }

  /** `Array.prototype.filter`. */
  function Filter<T(==,!new)>(s: seq<T>, p: T -> bool): (r: seq<T>)
    ensures |r| <= |s|
    ensures forall x :: x in r <==> x in s && p(x)
  {
    if s == [] then []
    else
      var rest := Filter(s[1..], p);
      assert forall x :: x in s <==> x == s[0] || x in s[1..];
      if p(s[0]) then [s[0]] + rest else rest
  }

  /** Filtering keeps every occurrence of a qualifying value and none of the others. */
  lemma {:induction false} FilterMultiset<T(!new)>(s: seq<T>, p: T -> bool)
    ensures forall x :: multiset(Filter(s, p))[x] == if p(x) then multiset(s)[x] else 0
  {
    if s != [] {
      FilterMultiset(s[1..], p);
      assert s == [s[0]] + s[1..];
    }
  }

  /** A filter that passes every element changes nothing. */
  lemma {:induction false} FilterKeepsAll<T(!new)>(s: seq<T>, p: T -> bool)
    requires forall x :: x in s ==> p(x)
    ensures Filter(s, p) == s
  {
    if s != [] {
      FilterKeepsAll(s[1..], p);
      assert s == [s[0]] + s[1..];
    }
  }

  /** A filter that passes no element gives the empty list. */
  lemma {:induction false} FilterKeepsNone<T(!new)>(s: seq<T>, p: T -> bool)
    requires forall x :: x in s ==> !p(x)
    ensures Filter(s, p) == []
  {
    if s != [] {
      FilterKeepsNone(s[1..], p);
    }
  }

  /** What a filter keeps is an order-preserving subsequence of its input. */
  lemma {:induction false} FilterSubsequence<T(!new)>(s: seq<T>, p: T -> bool)
    ensures IsSubsequence(Filter(s, p), s)
  {
    if s != [] {
      FilterSubsequence(s[1..], p);
      var rest := Filter(s[1..], p);
      if p(s[0]) {
        assert ([s[0]] + rest)[1..] == rest;
      }
    }
  }

  /** Filtering by two predicates that agree everywhere gives the same list. */
  lemma {:induction false} FilterCongruent<T(!new)>(s: seq<T>, p: T -> bool, q: T -> bool)
    requires forall x :: p(x) == q(x)
    ensures Filter(s, p) == Filter(s, q)
  {
    if s != [] {
      FilterCongruent(s[1..], p, q);
    }
  }

  /** Filtering distributes over concatenation. */
  lemma {:induction false} FilterAppend<T(!new)>(a: seq<T>, b: seq<T>, p: T -> bool)
    ensures Filter(a + b, p) == Filter(a, p) + Filter(b, p)
  {
    if a == [] {
      assert a + b == b;
    } else {
      assert (a + b)[1..] == a[1..] + b;
      FilterAppend(a[1..], b, p);
    }
  }

  /** Filtering the positions `0 .. n` adds `n` to the filtered positions `0 .. n-1` when it qualifies. */
  lemma FilterRangeSnoc(n: nat, p: nat -> bool)
    ensures Filter(Range(0, n + 1), p) == Filter(Range(0, n), p) + (if p(n) then [n] else [])
  {
    RangeSnoc(0, n);
    FilterAppend(Range(0, n), [n], p);
    assert Filter([n], p) == if p(n) then [n] else [];
  }

  /** `Range(lo, hi + 1)` ends with `hi`. */
  lemma RangeSnoc(lo: nat, hi: nat)
    requires lo <= hi
    ensures Range(lo, hi + 1) == Range(lo, hi) + [hi]
  {
  }

  /** The elements of `s` at positions `idx`, in that order. */
  function Pick<T>(s: seq<T>, idx: seq<nat>): (r: seq<T>)
    requires forall k :: 0 <= k < |idx| ==> idx[k] < |s|
    ensures |r| == |idx|
    ensures forall k :: 0 <= k < |idx| ==> r[k] == s[idx[k]]
  {
    seq(|idx|, k requires 0 <= k < |idx| => s[idx[k]])
  }

  /** Picking one more position appends that element. */
  lemma PickSnoc<T>(s: seq<T>, idx: seq<nat>, i: nat)
    requires forall k :: 0 <= k < |idx| ==> idx[k] < |s|
    requires i < |s|
    ensures Pick(s, idx + [i]) == Pick(s, idx) + [s[i]]
  {
  }

  /** The empty list is a subsequence of every list. */
  lemma {:induction false} EmptySubsequence<T>(s: seq<T>)
    ensures IsSubsequence([], s)
    decreases |s|
  {
    if s != [] {
      EmptySubsequence(s[1..]);
    }
  }

  /** Picking at strictly increasing positions gives an order-preserving subsequence. */
  lemma {:induction false} PickSubsequence<T>(s: seq<T>, idx: seq<nat>)
    requires forall k :: 0 <= k < |idx| ==> idx[k] < |s|
    requires StrictlyIncreasing(idx)
    ensures IsSubsequence(Pick(s, idx), s)
    decreases |s|
  {
    var a := Pick(s, idx);
    if idx == [] {
      EmptySubsequence(s);
    } else if idx[0] == 0 {
      var idx' := seq(|idx| - 1, k requires 0 <= k < |idx| - 1 => idx[k + 1] - 1);
      assert forall k :: 0 <= k < |idx'| ==> idx'[k] < |s[1..]|;
      PickSubsequence(s[1..], idx');
      assert Pick(s[1..], idx') == a[1..];
    } else {
      assert forall k :: 0 <= k < |idx| ==> idx[k] >= 1 by {
        forall k | 0 <= k < |idx| ensures idx[k] >= 1 {
          if k > 0 {
            assert idx[0] < idx[k];
          }
        }
      }
      var idx' := seq(|idx|, k requires 0 <= k < |idx| => idx[k] - 1);
      PickSubsequence(s[1..], idx');
      assert Pick(s[1..], idx') == a;
    }
  }

  /** `Array.prototype.findIndex`: the first index whose element satisfies `p`, or -1. */
  function FindIndex<T>(s: seq<T>, p: T -> bool): (r: int)
    ensures -1 <= r < |s|
    ensures r == -1 <==> forall k :: 0 <= k < |s| ==> !p(s[k])
    ensures r >= 0 ==> p(s[r]) && forall k :: 0 <= k < r ==> !p(s[k])
  {
    if s == [] then -1
    else if p(s[0]) then 0
    else
      var i := FindIndex(s[1..], p);
      assert forall k :: 1 <= k < |s| ==> s[k] == s[1..][k - 1];
      if i == -1 then -1 else i + 1
  }

  /** `sub` stands in `s` starting at position `i`. */
  ghost predicate OccursAt<T>(sub: seq<T>, s: seq<T>, i: nat) {
    i + |sub| <= |s| && s[i..i + |sub|] == sub
  }

  /** `String.prototype.includes`: `sub` occurs in `s` at some position. */
  ghost predicate OccursIn<T>(sub: seq<T>, s: seq<T>) {
    exists i: nat :: OccursAt(sub, s, i)
  }

  /** `s.includes(sub)`, computed by trying each start position in turn. */
  function Includes<T(==)>(s: seq<T>, sub: seq<T>): (r: bool)
    ensures r <==> OccursIn(sub, s)
    decreases |s|
  {
    if |sub| > |s| then false
    else if s[..|sub|] == sub then
      assert OccursAt(sub, s, 0);
      true
    else
      var r := Includes(s[1..], sub);
      assert r ==> OccursIn(sub, s) by {
        if r {
          var i: nat :| OccursAt(sub, s[1..], i);
          assert s[i + 1..i + 1 + |sub|] == s[1..][i..i + |sub|];
          assert OccursAt(sub, s, i + 1);
        }
      }
      assert OccursIn(sub, s) ==> r by {
        if OccursIn(sub, s) {
          var i: nat :| OccursAt(sub, s, i);
          assert i != 0;
          assert s[1..][i - 1..i - 1 + |sub|] == s[i..i + |sub|];
          assert OccursAt(sub, s[1..], i - 1);
        }
      }
      r
  }

  /** Every sequence occurs in itself. */
  lemma OccursInSelf<T>(s: seq<T>)
    ensures OccursIn(s, s)
  {
    assert OccursAt(s, s, 0);
  }

  /** The test `y => y !== x`. */
  function Unequal<T(==)>(x: T): T -> bool {
    y => y != x
  }

  /** `xs.filter(y => y !== x)`. */
  function Remove<T(==,!new)>(xs: seq<T>, x: T): (r: seq<T>)
    ensures x !in r
    ensures forall y :: y != x ==> (y in r <==> y in xs)
  {
    Filter(xs, Unequal(x))
  }

  /**
   * The membership toggle `xs.includes(x) ? xs.filter(y => y !== x) : [...xs, x]`:
   * it flips the membership of `x` and of nothing else.
   */
  function ToggleMember<T(==,!new)>(xs: seq<T>, x: T): (r: seq<T>)
    ensures x in r <==> x !in xs
    ensures forall y :: y != x ==> (y in r <==> y in xs)
  {
    if x in xs then Remove(xs, x) else xs + [x]
  }

  /** Toggling the same value twice restores the membership of every value. */
  lemma ToggleTwice<T(!new)>(xs: seq<T>, x: T)
    ensures forall y :: y in ToggleMember(ToggleMember(xs, x), x) <==> y in xs
  {
  }

  /** `[...new Set(xs)]`: the first occurrence of each value, in order. */
  function Distinct<T(==,!new)>(xs: seq<T>): (r: seq<T>)
    ensures NoDuplicates(r)
    ensures forall x :: x in r <==> x in xs
  {
    if xs == [] then []
    else
      var init := Distinct(xs[..|xs| - 1]);
      var last := xs[|xs| - 1];
      assert xs == xs[..|xs| - 1] + [last];
      if last in init then init else init + [last]
  }

  /** `s.slice(0, n)`. */
  function Take<T>(s: seq<T>, n: nat): (r: seq<T>)
    ensures |r| == if n <= |s| then n else |s|
    ensures r == s[..|r|]
  {
    if n <= |s| then s[..n] else s
  }

  /** Position `k` read from the pick list for a list of length `len` (> 0); an out-of-range pick means 0. */
  function PickAt(picks: seq<nat>, len: nat): (k: nat)
    requires len > 0
    ensures k < len
  {
    if picks == [] || picks[0] >= len then 0 else picks[0]
  }

  /** `s` without its element at position `k`. */
  function RemoveAt<T>(s: seq<T>, k: nat): (r: seq<T>)
    requires k < |s|
    ensures |r| == |s| - 1
  {
    s[..k] + s[k + 1..]
  }

  /** Removing position `k` removes one occurrence of `s[k]` and nothing else. */
  lemma RemoveAtMultiset<T>(s: seq<T>, k: nat)
    requires k < |s|
    ensures multiset(RemoveAt(s, k)) == multiset(s) - multiset{s[k]}
  {
    assert s == s[..k] + [s[k]] + s[k + 1..];
  }

  /**
   * A random reordering of `s`, driven by the caller's `picks`: repeatedly move the
   * picked remaining element to the output. This stands for the comparator shuffle
   * `sort(() => Math.random() - 0.5)`, whose outcome is some permutation.
   */
  function Shuffled<T>(s: seq<T>, picks: seq<nat>): (r: seq<T>)
    ensures |r| == |s|
    decreases |s|
  {
    if s == [] then []
    else
      var k := PickAt(picks, |s|);
      [s[k]] + Shuffled(RemoveAt(s, k), Tail(picks))
  }

  /** Whatever the picks, a shuffle is a permutation of its input. */
  lemma {:induction false} ShuffledPermutes<T>(s: seq<T>, picks: seq<nat>)
    ensures multiset(Shuffled(s, picks)) == multiset(s)
    decreases |s|
  {
    if s != [] {
      var k := PickAt(picks, |s|);
      ShuffledPermutes(RemoveAt(s, k), Tail(picks));
      RemoveAtMultiset(s, k);
    }
  }

  /** Every permutation `t` of `s` is the outcome of the returned pick list. */
  lemma {:induction false} ShuffledReachesEveryPermutation<T>(s: seq<T>, t: seq<T>) returns (picks: seq<nat>)
    requires multiset(t) == multiset(s)
    ensures Shuffled(s, picks) == t
    decreases |s|
  {
    if s == [] {
      assert |t| == |multiset(t)| == 0;
      picks := [];
    } else {
      assert t[0] in multiset(s) by { assert t[0] in multiset(t); }
      assert t[0] in s;
      var k: nat :| k < |s| && s[k] == t[0];
      ShuffledTailMultiset(s, t, k);
      var tail := ShuffledReachesEveryPermutation(RemoveAt(s, k), t[1..]);
      picks := [k] + tail;
      calc {
        Shuffled(s, picks);
        { ShuffledStep(s, k, tail); }
        [s[k]] + Shuffled(RemoveAt(s, k), tail);
        [t[0]] + t[1..];
        { HeadTail(t); }
        t;
      }
    }
  }

  /** Picking position `k` first moves `s[k]` to the front. */
  lemma ShuffledStep<T>(s: seq<T>, k: nat, tail: seq<nat>)
    requires k < |s|
    ensures Shuffled(s, [k] + tail) == [s[k]] + Shuffled(RemoveAt(s, k), tail)
  {
    var picks := [k] + tail;
    assert PickAt(picks, |s|) == k;
    assert Tail(picks) == tail;
  }

  /** All picks after the first. */
  function Tail(picks: seq<nat>): (r: seq<nat>)
    ensures picks != [] ==> r == picks[1..]
  {
    if picks == [] then [] else picks[1..]
  }

  /** Element `b` of `s` without position `k`: positions from `k` on move down by one. */
  lemma RemoveAtIndex<T>(s: seq<T>, k: nat, b: nat)
    requires k < |s| && b < |s| - 1
    ensures RemoveAt(s, k)[b] == s[if b < k then b else b + 1]
  {
  }

  /**
   * The first two elements of a shuffle: the first pick among all of `s`, and
   * the second pick among what is left.
   */
  lemma ShuffledFirstTwo<T>(s: seq<T>, picks: seq<nat>)
    requires |s| >= 2
    ensures Shuffled(s, picks)[0] == s[PickAt(picks, |s|)]
    ensures var a := PickAt(picks, |s|); var b := PickAt(Tail(picks), |s| - 1);
      Shuffled(s, picks)[1] == s[if b < a then b else b + 1]
  {
    var a := PickAt(picks, |s|);
    var left := RemoveAt(s, a);
    var b := PickAt(Tail(picks), |left|);
    assert Shuffled(s, picks) == [s[a]] + Shuffled(left, Tail(picks));
    assert Shuffled(left, Tail(picks))[0] == left[b];
    RemoveAtIndex(s, a, b);
  }

  /** A non-empty list is its head followed by its tail. */
  lemma HeadTail<T>(t: seq<T>)
    requires |t| > 0
    ensures [t[0]] + t[1..] == t
  {
  }

  /** Once `s[k]` heads `t`, the rest of `t` is a permutation of the rest of `s`. */
  lemma ShuffledTailMultiset<T>(s: seq<T>, t: seq<T>, k: nat)
    requires multiset(t) == multiset(s)
    requires k < |s| && |t| > 0 && s[k] == t[0]
    ensures multiset(t[1..]) == multiset(RemoveAt(s, k))
  {
    RemoveAtMultiset(s, k);
    assert t == [t[0]] + t[1..];
  }

  /** A permutation of `0 .. n-1` holds positions below `n`, each once. */
  lemma PermutationBounds(order: seq<nat>, n: nat)
    requires IsPermutationOf(order, n)
    ensures |order| == n
    ensures forall k :: 0 <= k < |order| ==> order[k] < n
    ensures NoDuplicates(order)
  {
    assert |order| == |multiset(order)| == |multiset(Range(0, n))| == n;
    forall k | 0 <= k < |order| ensures order[k] < n {
      assert order[k] in multiset(order);
      assert order[k] in Range(0, n);
    }
    RangeNoDuplicates(0, n);
    PermutationOfDistinct(order, Range(0, n));
  }

  lemma RangeNoDuplicates(lo: nat, hi: nat)
    ensures NoDuplicates(Range(lo, hi))
  {
  }

  /** A list without duplicates holds each value at most once. */
  lemma {:induction false} DistinctCountAtMostOne<T>(s: seq<T>, x: T)
    requires NoDuplicates(s)
    ensures multiset(s)[x] <= 1
  {
    if s != [] {
      assert s == [s[0]] + s[1..];
      DistinctCountAtMostOne(s[1..], x);
      if s[0] == x {
        assert x !in s[1..];
      }
    }
  }

  /** A rearrangement of a list without duplicates has none either. */
  lemma PermutationOfDistinct<T>(p: seq<T>, s: seq<T>)
    requires multiset(p) == multiset(s)
    requires NoDuplicates(s)
    ensures NoDuplicates(p)
  {
    forall i, j | 0 <= i < j < |p| ensures p[i] != p[j] {
      if p[i] == p[j] {
        assert p == p[..i] + [p[i]] + p[i + 1..j] + [p[j]] + p[j + 1..];
        assert multiset(p)[p[i]] >= 2;
        DistinctCountAtMostOne(s, p[i]);
        assert false;
      }
    }
  }

  /** `s` is ordered from the largest `key` to the smallest. */
  ghost predicate SortedDesc<T>(s: seq<T>, key: T -> int) {
    forall i, j :: 0 <= i < j < |s| ==> key(s[i]) >= key(s[j])
  }

  /** Insert `x` into a descending list in front of the first element it is not below. */
  function InsertDesc<T>(x: T, s: seq<T>, key: T -> int): (r: seq<T>)
    ensures |r| == |s| + 1
  {
    if s == [] || key(x) >= key(s[0]) then [x] + s
    else [s[0]] + InsertDesc(x, s[1..], key)
  }

  /** Inserting adds `x` and keeps every element. */
  lemma {:induction false} InsertDescMultiset<T>(x: T, s: seq<T>, key: T -> int)
    ensures multiset(InsertDesc(x, s, key)) == multiset(s) + multiset{x}
  {
    if s != [] && key(x) < key(s[0]) {
      InsertDescMultiset(x, s[1..], key);
      assert s == [s[0]] + s[1..];
    }
  }

  /** Inserting into a descending list gives a descending list. */
  lemma {:induction false} InsertDescSorted<T>(x: T, s: seq<T>, key: T -> int)
    requires SortedDesc(s, key)
    ensures SortedDesc(InsertDesc(x, s, key), key)
  {
    if s != [] && key(x) < key(s[0]) {
      var rest := InsertDesc(x, s[1..], key);
      InsertDescSorted(x, s[1..], key);
      InsertDescMultiset(x, s[1..], key);
      forall k | 0 <= k < |rest| ensures key(s[0]) >= key(rest[k]) {
        assert rest[k] in multiset(rest);
        if rest[k] != x {
          assert rest[k] in multiset(s[1..]);
          var j :| 0 <= j < |s[1..]| && s[1..][j] == rest[k];
          assert s[j + 1] == rest[k];
        }
      }
    }
  }

  /**
   * A stable sort from the largest `key` to the smallest: `sort((a, b) => key(b) - key(a))`.
   */
  function InsertionSortDesc<T>(s: seq<T>, key: T -> int): (r: seq<T>)
    ensures SortedDesc(r, key)
    ensures multiset(r) == multiset(s)
  {
    if s == [] then []
    else
      var rest := InsertionSortDesc(s[1..], key);
      InsertDescSorted(s[0], rest, key);
      InsertDescMultiset(s[0], rest, key);
      assert s == [s[0]] + s[1..];
      InsertDesc(s[0], rest, key)
  }

  /** The elements whose `key` is `k`. */
  function KeyIs<T>(key: T -> int, k: int): T -> bool {
    x => key(x) == k
  }

  /**
   * `x` goes in front of the first element whose key is not above its own,
   * so it lands before every element of its key already there.
   */
  lemma {:induction false} InsertDescFilter<T(!new)>(x: T, s: seq<T>, key: T -> int, k: int)
    ensures Filter(InsertDesc(x, s, key), KeyIs(key, k)) == (if key(x) == k then [x] else []) + Filter(s, KeyIs(key, k))
  {
    if s == [] || key(x) >= key(s[0]) {
      assert ([x] + s)[1..] == s;
    } else {
      InsertDescFilter(x, s[1..], key, k);
      assert ([s[0]] + InsertDesc(x, s[1..], key))[1..] == InsertDesc(x, s[1..], key);
    }
  }

  /** The sort is stable: the elements of each key keep their relative order. */
  lemma {:induction false} InsertionSortStable<T(!new)>(s: seq<T>, key: T -> int, k: int)
    ensures Filter(InsertionSortDesc(s, key), KeyIs(key, k)) == Filter(s, KeyIs(key, k))
  {
    if s != [] {
      InsertionSortStable(s[1..], key, k);
      InsertDescFilter(s[0], InsertionSortDesc(s[1..], key), key, k);
    }
  }

  /**
   * `Distinct` keeps first appearances in order: any occurrence of a later
   * value comes after an occurrence of every earlier one.
   */
  lemma {:induction false} DistinctFirstAppearance<T(!new)>(xs: seq<T>, i: nat, j: nat, q: nat)
    requires i < j < |Distinct(xs)| && q < |xs| && xs[q] == Distinct(xs)[j]
    ensures Distinct(xs)[i] in xs[..q]
  {
    var init := Distinct(xs[..|xs| - 1]);
    var last := xs[|xs| - 1];
    assert xs == xs[..|xs| - 1] + [last];
    assert xs[..|xs| - 1][..q] == xs[..q] by { if q < |xs| - 1 { } }
    if q < |xs| - 1 && j < |init| {
      DistinctFirstAppearance(xs[..|xs| - 1], i, j, q);
    } else {
      assert init[i] in xs[..|xs| - 1];
    }
  }
}

=== FILE: session.dfy ===
/**
 * The study session of the flashcard screen (`FlashcardApp` in `src/App.js`):
 * the deck filter, the card order, the cursor, the per-card reveal state and
 * the swipe-up cycle, the difficulty ledger, the lesson and difficulty
 * selections, and the keyboard dispatch.
 *
 * A card is identified by its position in the full deck (`flashcards.indexOf`
 * of an object of that array), so the filtered deck is a list of positions.
 * Each handler runs to the state in which React's effects have settled: an
 * effect runs only when one of its dependencies changed value (or, for an
 * array, reference).
 */
module Session {
  import opened Seqs
  import opened Cards

  /** `difficulties[i] || 'średnie'`: an unset or empty entry counts as medium. */
  function EffectiveDifficulty(ledger: Ledger, i: nat): string {
    if i in ledger && ledger[i] != "" then ledger[i] else MEDIUM
  }

  /** The lesson filter: the card's `id_lekcji` is selected. */
  function LessonPass(deck: seq<Card>, lessons: seq<string>): nat -> bool {
    (i: nat) => i < |deck| && deck[i].lesson in lessons
  }

  /** The difficulty filter: the card's effective difficulty is selected. */
  function DifficultyPass(ledger: Ledger, diffs: seq<string>): nat -> bool {
    (i: nat) => EffectiveDifficulty(ledger, i) in diffs
  }

  /**
   * Card `i` passes the filter: its lesson is selected or no lesson is, and its
   * effective difficulty is selected or no difficulty is.
   */
  predicate Passes(deck: seq<Card>, lessons: seq<string>, diffs: seq<string>, ledger: Ledger, i: nat) {
    i < |deck| && (lessons == [] || deck[i].lesson in lessons) && (diffs == [] || EffectiveDifficulty(ledger, i) in diffs)
  }

  /** The passing positions among the first `n`, in increasing order. */
  function PassingBefore(deck: seq<Card>, lessons: seq<string>, diffs: seq<string>, ledger: Ledger, n: nat): (r: seq<nat>)
    requires n <= |deck|
    ensures forall k :: 0 <= k < |r| ==> r[k] < n
  {
    if n == 0 then []
    else PassingBefore(deck, lessons, diffs, ledger, n - 1) + (if Passes(deck, lessons, diffs, ledger, n - 1) then [n - 1] else [])
  }

  /**
   * The filtering effect: the deck positions of the cards that pass, in deck
   * order. `FilterDeckMembers` states what passes and `FilterDeckTwoStage`
   * that this is the lesson filter followed by the difficulty filter.
   */
  function FilterDeck(deck: seq<Card>, lessons: seq<string>, diffs: seq<string>, ledger: Ledger): (r: seq<nat>)
    ensures forall k :: 0 <= k < |r| ==> r[k] < |deck|
  {
    PassingBefore(deck, lessons, diffs, ledger, |deck|)
  }

  lemma {:induction false} PassingBeforeMembers(deck: seq<Card>, lessons: seq<string>, diffs: seq<string>, ledger: Ledger, n: nat)
    requires n <= |deck|
    ensures forall i: nat :: i in PassingBefore(deck, lessons, diffs, ledger, n) <==> i < n && Passes(deck, lessons, diffs, ledger, i)
  {
    if n > 0 {
      PassingBeforeMembers(deck, lessons, diffs, ledger, n - 1);
    }
  }

  /** The passing positions come out in increasing order. */
  lemma {:induction false} PassingBeforeIncreasing(deck: seq<Card>, lessons: seq<string>, diffs: seq<string>, ledger: Ledger, n: nat)
    requires n <= |deck|
    ensures StrictlyIncreasing(PassingBefore(deck, lessons, diffs, ledger, n))
  {
    if n > 0 {
      PassingBeforeIncreasing(deck, lessons, diffs, ledger, n - 1);
    }
  }

  lemma {:induction false} PassingBeforeAll(deck: seq<Card>, ledger: Ledger, n: nat)
    requires n <= |deck|
    ensures PassingBefore(deck, [], [], ledger, n) == Range(0, n)
  {
    if n > 0 {
      PassingBeforeAll(deck, ledger, n - 1);
      RangeSnoc(0, n - 1);
    }
  }

  /**
   * A card passes the filter iff its lesson is selected or no lesson is, and
   * its effective difficulty is selected or no difficulty is. The result is
   * in deck order, and with both selections empty it is the whole deck.
   */
  lemma FilterDeckMembers(deck: seq<Card>, lessons: seq<string>, diffs: seq<string>, ledger: Ledger)
    ensures forall i: nat :: i in FilterDeck(deck, lessons, diffs, ledger) <==>
      i < |deck| && (lessons == [] || deck[i].lesson in lessons) && (diffs == [] || EffectiveDifficulty(ledger, i) in diffs)
    ensures StrictlyIncreasing(FilterDeck(deck, lessons, diffs, ledger))
    ensures lessons == [] && diffs == [] ==> FilterDeck(deck, lessons, diffs, ledger) == Range(0, |deck|)
  {
    PassingBeforeMembers(deck, lessons, diffs, ledger, |deck|);
    PassingBeforeIncreasing(deck, lessons, diffs, ledger, |deck|);
    if lessons == [] && diffs == [] {
      PassingBeforeAll(deck, ledger, |deck|);
    }
  }

  /**
   * The filter as the effect writes it: `flashcards`, narrowed by the lesson
   * filter when a lesson is selected, then by the difficulty filter when a
   * difficulty is selected.
   */
  function TwoStage(deck: seq<Card>, lessons: seq<string>, diffs: seq<string>, ledger: Ledger, n: nat): seq<nat> {
    var all := Range(0, n);
    var byLesson := if |lessons| > 0 then Filter(all, LessonPass(deck, lessons)) else all;
    if |diffs| > 0 then Filter(byLesson, DifficultyPass(ledger, diffs)) else byLesson
  }

  /** The passing positions are exactly what the two filters in sequence keep. */
  lemma FilterDeckTwoStage(deck: seq<Card>, lessons: seq<string>, diffs: seq<string>, ledger: Ledger)
    ensures FilterDeck(deck, lessons, diffs, ledger) == TwoStage(deck, lessons, diffs, ledger, |deck|)
  {
    TwoStageBefore(deck, lessons, diffs, ledger, |deck|);
  }

  lemma {:induction false} TwoStageBefore(deck: seq<Card>, lessons: seq<string>, diffs: seq<string>, ledger: Ledger, n: nat)
    requires n <= |deck|
    ensures PassingBefore(deck, lessons, diffs, ledger, n) == TwoStage(deck, lessons, diffs, ledger, n)
  {
    if n > 0 {
      PassingBeforeStep(deck, lessons, diffs, ledger, n);
      TwoStageSnoc(deck, lessons, diffs, ledger, n - 1);
      TwoStageBefore(deck, lessons, diffs, ledger, n - 1);
    } else {
      assert Range(0, 0) == [];
    }
  }

  /** The lesson stage over `0 .. m` adds `m` to its result over `0 .. m-1` when `m` passes it. */
  lemma LessonStageSnoc(deck: seq<Card>, lessons: seq<string>, m: nat)
    ensures (if |lessons| > 0 then Filter(Range(0, m + 1), LessonPass(deck, lessons)) else Range(0, m + 1)) ==
      (if |lessons| > 0 then Filter(Range(0, m), LessonPass(deck, lessons)) else Range(0, m)) +
      (if |lessons| > 0 && !LessonPass(deck, lessons)(m) then [] else [m])
  {
    RangeSnoc(0, m);
    if |lessons| > 0 {
      FilterRangeSnoc(m, LessonPass(deck, lessons));
    }
  }

  /** Both stages over `0 .. m` add `m` to their result over `0 .. m-1` exactly when `m` passes. */
  lemma TwoStageSnoc(deck: seq<Card>, lessons: seq<string>, diffs: seq<string>, ledger: Ledger, m: nat)
    requires m < |deck|
    ensures TwoStage(deck, lessons, diffs, ledger, m + 1) ==
      TwoStage(deck, lessons, diffs, ledger, m) + (if Passes(deck, lessons, diffs, ledger, m) then [m] else [])
  {
    var lp := LessonPass(deck, lessons);
    var dp := DifficultyPass(ledger, diffs);
    var before := if |lessons| > 0 then Filter(Range(0, m), lp) else Range(0, m);
    var step: seq<nat> := if |lessons| > 0 && !lp(m) then [] else [m];
    LessonStageSnoc(deck, lessons, m);
    if |diffs| > 0 {
      FilterAppend(before, step, dp);
      assert Filter(step, dp) == if Passes(deck, lessons, diffs, ledger, m) then [m] else [];
    }
  }

  lemma PassingBeforeStep(deck: seq<Card>, lessons: seq<string>, diffs: seq<string>, ledger: Ledger, n: nat)
    requires 0 < n <= |deck|
    ensures PassingBefore(deck, lessons, diffs, ledger, n) ==
      PassingBefore(deck, lessons, diffs, ledger, n - 1) + (if Passes(deck, lessons, diffs, ledger, n - 1) then [n - 1] else [])
  {
  }

  /** The filtered cards, in deck order, are an order-preserving subsequence of the deck. */
  lemma FilteredSubsequence(deck: seq<Card>, lessons: seq<string>, diffs: seq<string>, ledger: Ledger)
    ensures IsSubsequence(Pick(deck, FilterDeck(deck, lessons, diffs, ledger)), deck)
  {
    FilterDeckMembers(deck, lessons, diffs, ledger);
    PickSubsequence(deck, FilterDeck(deck, lessons, diffs, ledger));
  }

  /**
   * The ordering effect: `[...Array(n).keys()]`, shuffled when `isRandom`.
   * The result is always a permutation of `0 .. n-1` (`OrderPermutation`).
   */
  function Order(n: nat, isRandom: bool, picks: seq<nat>): (r: seq<nat>)
    ensures |r| == n
  {
    if isRandom then Shuffled(Range(0, n), picks) else Range(0, n)
  }

  /** Every order lists each position `0 .. n-1` exactly once; without `isRandom` it is the identity. */
  lemma OrderPermutation(n: nat, isRandom: bool, picks: seq<nat>)
    ensures IsPermutationOf(Order(n, isRandom, picks), n)
    ensures forall k :: 0 <= k < n ==> Order(n, isRandom, picks)[k] < n
    ensures NoDuplicates(Order(n, isRandom, picks))
    ensures !isRandom ==> Order(n, isRandom, picks) == Range(0, n)
  {
    ShuffledPermutes(Range(0, n), picks);
    PermutationBounds(Order(n, isRandom, picks), n);
  }

  /** Every permutation of `0 .. n-1` is the random order for some picks. */
  lemma OrderReachesEveryPermutation(n: nat, order: seq<nat>)
    ensures IsPermutationOf(order, n) ==> exists p :: Order(n, true, p) == order
  {
    if IsPermutationOf(order, n) {
      var p := ShuffledReachesEveryPermutation(Range(0, n), order);
      assert Order(n, true, p) == order;
    }
  }

  /** `handleNext`: `(i + 1) % n`, which wraps from the last card to the first. */
  function NextIndex(i: nat, n: nat): (r: nat)
    requires n > 0
    ensures r < n
    ensures i < n ==> r == if i == n - 1 then 0 else i + 1
  {
    (i + 1) % n
  }

  /** `handlePrev`: `(i - 1 + n) % n`, which wraps from the first card to the last. */
  function PrevIndex(i: nat, n: nat): (r: nat)
    requires n > 0
    ensures r < n
    ensures i < n ==> r == if i == 0 then n - 1 else i - 1
  {
    (i - 1 + n) % n
  }

  /** Going back undoes going forward, and the other way round. */
  lemma NextPrevInverse(i: nat, n: nat)
    requires i < n
    ensures PrevIndex(NextIndex(i, n), n) == i
    ensures NextIndex(PrevIndex(i, n), n) == i
  {
  }

  /** The boundary effect: an index past the end of a non-empty deck goes back to 0. */
  function BoundaryIndex(i: nat, n: nat): (r: nat)
    ensures n > 0 ==> r < n
    ensures i < n || n == 0 ==> r == i
  {
    if i >= n && n > 0 then 0 else i
  }

  /**
   * `setDifficulty` on the ledger: clicking the label a card already has
   * removes its entry, any other label sets it. Only key `k` changes.
   */
  function ToggleLedger(m: Ledger, k: nat, level: string): (r: Ledger)
    ensures k in m && m[k] == level ==> k !in r
    ensures !(k in m && m[k] == level) ==> k in r && r[k] == level
    ensures forall j :: j != k ==> (j in r <==> j in m) && (j in r ==> r[j] == m[j])
  {
    if k in m && m[k] == level then m - {k} else m[k := level]
  }

  /**
   * Applying the same label twice restores the ledger when the card was unset
   * or had that label, and leaves the card unset when it had another label.
   */
  lemma ToggleLedgerTwice(m: Ledger, k: nat, level: string)
    ensures k !in m || m[k] == level ==> ToggleLedger(ToggleLedger(m, k, level), k, level) == m
    ensures k in m && m[k] != level ==> ToggleLedger(ToggleLedger(m, k, level), k, level) == m - {k}
  {
    var once := ToggleLedger(m, k, level);
    var twice := ToggleLedger(once, k, level);
    if k !in m || m[k] == level {
      assert twice.Keys == m.Keys;
    } else {
      assert twice.Keys == m.Keys - {k};
    }
  }

  /** `isAnyHidden`: some field is switched off in the effective display mode and not yet revealed. */
  function AnyHidden(effective: Fields, revealed: Fields): (r: bool)
    ensures r <==> exists f :: !effective.Get(f) && !revealed.Get(f)
  {
    var r := (!effective.chinese && !revealed.chinese) || (!effective.pinyin && !revealed.pinyin)
      || (!effective.polish && !revealed.polish);
    assert !effective.Get(Chinese) && !revealed.Get(Chinese) ==> r;
    assert !effective.Get(Pinyin) && !revealed.Get(Pinyin) ==> r;
    assert !effective.Get(Polish) && !revealed.Get(Polish) ==> r;
    r
  }

  /** Once every field is revealed, nothing is hidden, whatever the display mode. */
  lemma RevealAllHidesNothing(effective: Fields)
    ensures !AnyHidden(effective, ALL_FIELDS)
  {
  }

  /** The per-card view state the swipe-up cycle walks through. */
  datatype CardView = CardView(revealed: Fields, showExample: bool, hasViewedExample: bool)

  /** The view of a card just arrived at, and the one `handleReset` returns to. */
  const FRESH: CardView := CardView(NO_FIELDS, false, false)

  /**
   * One swipe up: reveal everything if something is hidden; else show the
   * example if it was never shown for this card; else hide a shown example;
   * else reset the card.
   */
  function SwipeStep(effective: Fields, v: CardView): (w: CardView)
    ensures AnyHidden(effective, v.revealed) ==> w == v.(revealed := ALL_FIELDS)
    ensures !AnyHidden(effective, v.revealed) && !v.showExample && !v.hasViewedExample ==>
      w == v.(showExample := true, hasViewedExample := true)
    ensures !AnyHidden(effective, v.revealed) && v.showExample ==> w == v.(showExample := false)
    ensures !AnyHidden(effective, v.revealed) && !v.showExample && v.hasViewedExample ==> w == FRESH
  {
    if AnyHidden(effective, v.revealed) then v.(revealed := ALL_FIELDS)
    else if !v.showExample && !v.hasViewedExample then v.(showExample := true, hasViewedExample := true)
    else if v.showExample then v.(showExample := false)
    else FRESH
  }

  /**
   * From a fresh card with something hidden, four swipes reveal all, show the
   * example, hide it and reset, back to the fresh view.
   */
  lemma SwipeCycleHidden(effective: Fields)
    requires AnyHidden(effective, NO_FIELDS)
    ensures SwipeStep(effective, FRESH) == CardView(ALL_FIELDS, false, false)
    ensures SwipeStep(effective, SwipeStep(effective, FRESH)) == CardView(ALL_FIELDS, true, true)
    ensures SwipeStep(effective, SwipeStep(effective, SwipeStep(effective, FRESH))) == CardView(ALL_FIELDS, false, true)
    ensures SwipeStep(effective, SwipeStep(effective, SwipeStep(effective, SwipeStep(effective, FRESH)))) == FRESH
  {
    RevealAllHidesNothing(effective);
  }

  /** From a fresh card with nothing hidden, three swipes show the example, hide it and reset. */
  lemma SwipeCycleVisible(effective: Fields)
    requires !AnyHidden(effective, NO_FIELDS)
    ensures SwipeStep(effective, FRESH) == CardView(NO_FIELDS, true, true)
    ensures SwipeStep(effective, SwipeStep(effective, FRESH)) == CardView(NO_FIELDS, false, true)
    ensures SwipeStep(effective, SwipeStep(effective, SwipeStep(effective, FRESH))) == FRESH
  {
  }

  /** `allLessons`: each lesson id of the deck once, in order of first appearance. */
  function AllLessons(deck: seq<Card>): (r: seq<string>)
    ensures NoDuplicates(r)
    ensures forall l :: l in r <==> exists i :: 0 <= i < |deck| && deck[i].lesson == l
  {
    var ids := seq(|deck|, i requires 0 <= i < |deck| => deck[i].lesson);
    assert forall i :: 0 <= i < |deck| ==> ids[i] == deck[i].lesson;
    Distinct(ids)
  }

  /** What a key press does, as the keyboard handler's `switch` reads `e.key`. */
  datatype Action = GoNext | GoPrev | RevealOrNext | RevealOrToggleExample | Rate(level: string) | ResetCard | Ignore

  function KeyAction(key: string): Action {
    if key in {"d", "D", "ArrowRight"} then GoNext
    else if key in {"a", "A", "ArrowLeft"} then GoPrev
    else if key == " " then RevealOrNext
    else if key in {"c", "C", "s", "S", "ArrowDown"} then RevealOrToggleExample
    else if key == "1" then Rate(EASY)
    else if key == "2" then Rate(MEDIUM)
    else if key == "3" then Rate(HARD)
    else if key in {"r", "R"} then ResetCard
    else Ignore
  }

  /**
   * The filtered deck and the study order agree with the selections: the
   * filtered positions are what the filter passes (with the ledger it last
   * ran with), and the order is what the ordering effect built for them from
   * some picks, so a permutation of the filtered positions (`OrderPermutation`).
   */
  ghost predicate Arranged(deck: seq<Card>, lessons: seq<string>, diffs: seq<string>, ledger: Ledger,
                           filtered: seq<nat>, order: seq<nat>, isRandom: bool, picks: seq<nat>) {
    && filtered == FilterDeck(deck, lessons, diffs, ledger)
    && order == Order(|filtered|, isRandom, picks)
  }

  /** With nothing selected the filter passes the whole deck, whatever the ledger it runs with. */
  lemma ArrangedWholeDeck(deck: seq<Card>, ledger: Ledger, ledger': Ledger, filtered: seq<nat>, order: seq<nat>,
                          isRandom: bool, picks: seq<nat>)
    requires Arranged(deck, [], [], ledger, filtered, order, isRandom, picks)
    ensures Arranged(deck, [], [], ledger', filtered, order, isRandom, picks)
    ensures filtered == FilterDeck(deck, [], [], ledger')
  {
    PassingBeforeAll(deck, ledger, |deck|);
    PassingBeforeAll(deck, ledger', |deck|);
  }

  /** The state of the study screen. */
  class Session {
    /** `flashcards`: the deck, never changed. */
    const deck: seq<Card>

    var displayMode: Fields
    var isRandom: bool
    var isRandomBlur: bool
    var selectedLessons: seq<string>
    var selectedDifficulties: seq<string>
    var difficulties: Ledger

    /** Deck positions of the cards that passed the filter, in deck order. */
    var filteredCards: seq<nat>
    /** A permutation of `0 .. |filteredCards|-1`: the study order. */
    var cardOrder: seq<nat>
    var currentIndex: nat

    var showExample: bool
    var hasViewedExample: bool
    var randomDisplayMode: Fields
    var revealedFields: Fields

    /** The ledger as it was when the filter last ran: the filter is not re-run when a label changes. */
    ghost var filterLedger: Ledger
    /** The picks the order was last shuffled with. */
    ghost var orderPicks: seq<nat>

    /** The filtered deck and the order agree with the selections (`Arranged`). */
    ghost predicate Ordered()
      reads this`selectedLessons, this`selectedDifficulties, this`filterLedger, this`filteredCards
      reads this`cardOrder, this`isRandom, this`orderPicks
    {
      Arranged(deck, selectedLessons, selectedDifficulties, filterLedger, filteredCards, cardOrder, isRandom, orderPicks)
    }

    ghost predicate Valid()
      reads this
    {
      && Ordered()
      && (|filteredCards| > 0 ==> currentIndex < |filteredCards|)
      && (showExample ==> hasViewedExample)
      && (isRandomBlur ==> 1 <= randomDisplayMode.FalseCount() <= 2)
    }

    /** The display mode in force: the random one when random blur is on. */
    function Effective(): Fields
      reads this
    {
      if isRandomBlur then randomDisplayMode else displayMode
    }

    function View(): CardView
      reads this
    {
      CardView(revealedFields, showExample, hasViewedExample)
    }

    function IsAnyHidden(): bool
      reads this
    {
      AnyHidden(Effective(), revealedFields)
    }

    /** `currentCardId`: the deck position of the card on screen. */
    function CurrentCardId(): (id: nat)
      reads this
      requires Valid() && |filteredCards| > 0
      ensures id < |deck|
      ensures id in filteredCards
    {
      OrderPermutation(|filteredCards|, isRandom, orderPicks);
      filteredCards[cardOrder[currentIndex]]
    }

    /**
     * The screen once its mount effects have run, from the preferences read
     * from storage: filtered, ordered, on the first card, nothing revealed.
     */
    constructor (cards: seq<Card>, mode: Fields, random: bool, randomBlur: bool, lessons: seq<string>,
                 diffs: seq<string>, ledger: Ledger, picks: seq<nat>, draw: BlurDraw)
      ensures Valid()
      ensures deck == cards && displayMode == mode && isRandom == random && isRandomBlur == randomBlur
      ensures selectedLessons == lessons && selectedDifficulties == diffs && difficulties == ledger
      ensures filteredCards == FilterDeck(cards, lessons, diffs, ledger)
      ensures cardOrder == Order(|filteredCards|, random, picks)
      ensures currentIndex == 0 && View() == FRESH
      ensures randomDisplayMode == if randomBlur then RandomDisplayMode(draw) else ALL_FIELDS
    {
      deck := cards;
      displayMode := mode;
      isRandom := random;
      isRandomBlur := randomBlur;
      selectedLessons := lessons;
      selectedDifficulties := diffs;
      difficulties := ledger;
      var filtered := FilterDeck(cards, lessons, diffs, ledger);
      filteredCards := filtered;
      cardOrder := Order(|filtered|, random, picks);
      currentIndex := 0;
      showExample := false;
      hasViewedExample := false;
      randomDisplayMode := if randomBlur then RandomDisplayMode(draw) else ALL_FIELDS;
      revealedFields := NO_FIELDS;
      filterLedger, orderPicks := ledger, picks;
    }

    /**
     * The card-change state after a move to `index`: the cursor there, the
     * example hidden, and, when the index changed, the reveal state and the
     * example history cleared and the random blur redrawn; otherwise those kept.
     */
    twostate predicate MovedTo(index: nat, draw: BlurDraw)
      reads this
    {
      && currentIndex == index && !showExample
      && (index != old(currentIndex) ==> revealedFields == NO_FIELDS && !hasViewedExample)
      && (index == old(currentIndex) ==> revealedFields == old(revealedFields) && hasViewedExample == old(hasViewedExample))
      && randomDisplayMode == (if index != old(currentIndex) && isRandomBlur then RandomDisplayMode(draw) else old(randomDisplayMode))
    }

    /**
     * Move the cursor to `index` with the example hidden. When the index
     * changes, the card-change effects clear the reveal state and the
     * example history and redraw the random blur.
     */
    method MoveTo(index: nat, draw: BlurDraw)
      requires Valid() && index < |filteredCards|
      modifies this`revealedFields, this`hasViewedExample, this`randomDisplayMode, this`currentIndex, this`showExample
      ensures Valid()
      ensures MovedTo(index, draw)
      ensures displayMode == old(displayMode) && isRandom == old(isRandom) && isRandomBlur == old(isRandomBlur)
      ensures selectedLessons == old(selectedLessons) && selectedDifficulties == old(selectedDifficulties)
      ensures difficulties == old(difficulties) && filteredCards == old(filteredCards)
      ensures cardOrder == old(cardOrder)
    {
      if index != currentIndex {
        revealedFields := NO_FIELDS;
        hasViewedExample := false;
        if isRandomBlur {
          randomDisplayMode := RandomDisplayMode(draw);
        }
      }
      currentIndex := index;
      showExample := false;
    }

    /** `handleNext`. */
    method Next(draw: BlurDraw)
      requires Valid() && |filteredCards| > 0
      modifies this`revealedFields, this`hasViewedExample, this`randomDisplayMode, this`currentIndex, this`showExample
      ensures Valid()
      ensures MovedTo(NextIndex(old(currentIndex), |filteredCards|), draw)
      ensures |filteredCards| > 1 ==> currentIndex != old(currentIndex)
    {
      MoveTo(NextIndex(currentIndex, |filteredCards|), draw);
    }

    /** `handlePrev`. */
    method Prev(draw: BlurDraw)
      requires Valid() && |filteredCards| > 0
      modifies this`revealedFields, this`hasViewedExample, this`randomDisplayMode, this`currentIndex, this`showExample
      ensures Valid()
      ensures MovedTo(PrevIndex(old(currentIndex), |filteredCards|), draw)
      ensures |filteredCards| > 1 ==> currentIndex != old(currentIndex)
    {
      MoveTo(PrevIndex(currentIndex, |filteredCards|), draw);
    }

    /** `revealAll`: afterwards nothing is hidden. */
    method RevealAll()
      requires Valid()
      modifies this`revealedFields
      ensures Valid()
      ensures revealedFields == ALL_FIELDS && !IsAnyHidden()
      ensures View() == old(View()).(revealed := ALL_FIELDS)
      ensures unchanged(this`currentIndex, this`filteredCards, this`cardOrder, this`difficulties, this`randomDisplayMode)
      ensures unchanged(this`displayMode, this`isRandomBlur, this`selectedLessons, this`selectedDifficulties)
    {
      revealedFields := ALL_FIELDS;
    }

    /** `handleReveal`: reveal one field; the other fields keep their state. */
    method HandleReveal(f: Field)
      requires Valid()
      modifies this`revealedFields
      ensures Valid()
      ensures revealedFields == old(revealedFields).Set(f, true)
      ensures revealedFields.Get(f) && forall g :: g != f ==> revealedFields.Get(g) == old(revealedFields).Get(g)
      ensures showExample == old(showExample) && hasViewedExample == old(hasViewedExample)
      ensures unchanged(this`currentIndex, this`filteredCards, this`cardOrder, this`difficulties, this`randomDisplayMode)
    {
      if !revealedFields.Get(f) {
        revealedFields := revealedFields.Set(f, true);
      } else {
        assert revealedFields.Set(f, true) == revealedFields by {
          match f
          case Chinese =>
          case Pinyin =>
          case Polish =>
        }
      }
    }

    /** `handleReset`: back to the fresh view of the card. */
    method HandleReset()
      requires Valid()
      modifies this`revealedFields, this`showExample, this`hasViewedExample
      ensures Valid()
      ensures View() == FRESH
      ensures unchanged(this`currentIndex, this`filteredCards, this`cardOrder, this`difficulties, this`randomDisplayMode)
      ensures unchanged(this`displayMode, this`isRandomBlur, this`selectedLessons, this`selectedDifficulties)
    {
      showExample := false;
      revealedFields := NO_FIELDS;
      hasViewedExample := false;
    }

    /** `setShowExample(v)`; showing the example records that it was viewed. */
    method SetShowExample(v: bool)
      requires Valid()
      modifies this`showExample, this`hasViewedExample
      ensures Valid()
      ensures showExample == v
      ensures hasViewedExample == (v || old(hasViewedExample))
      ensures revealedFields == old(revealedFields)
      ensures unchanged(this`currentIndex, this`filteredCards, this`cardOrder, this`difficulties, this`randomDisplayMode)
      ensures unchanged(this`displayMode, this`isRandomBlur, this`selectedLessons, this`selectedDifficulties)
    {
      showExample := v;
      if v {
        hasViewedExample := true;
      }
    }

    /** The swipe-up handler: one step of the reveal / show / hide / reset cycle. */
    method SwipeUp()
      requires Valid()
      modifies this`revealedFields, this`showExample, this`hasViewedExample
      ensures Valid()
      ensures View() == SwipeStep(old(Effective()), old(View()))
      ensures unchanged(this`currentIndex, this`filteredCards, this`cardOrder, this`difficulties, this`randomDisplayMode)
      ensures unchanged(this`displayMode, this`isRandomBlur)
    {
      if IsAnyHidden() {
        RevealAll();
      } else if !showExample && !hasViewedExample {
        SetShowExample(true);
      } else if showExample {
        SetShowExample(false);
      } else if !showExample && hasViewedExample {
        HandleReset();
      }
    }

    /**
     * `setDifficulty`: toggle the current card's label in the ledger. The
     * filter does not run again, so the filtered deck stays as it is.
     */
    method SetDifficulty(level: string)
      requires Valid() && |filteredCards| > 0
      modifies this`difficulties
      ensures Valid()
      ensures difficulties == ToggleLedger(old(difficulties), old(CurrentCardId()), level)
      ensures unchanged(this`currentIndex, this`filteredCards, this`cardOrder, this`randomDisplayMode)
      ensures unchanged(this`revealedFields, this`showExample, this`hasViewedExample)
      ensures unchanged(this`selectedLessons, this`selectedDifficulties, this`displayMode)
    {
      difficulties := ToggleLedger(difficulties, CurrentCardId(), level);
    }

    /**
     * The state once the selection has become `lessons` and `diffs` and its
     * effects have run: the deck filtered with the current ledger; unless
     * nothing was selected before or after, a new order and, under random
     * blur, a new blur; the reveal state cleared; the cursor clamped, which
     * clears the example history when it moves; the ledger, the display mode
     * and the random flags as they were.
     */
    twostate predicate Reselected(lessons: seq<string>, diffs: seq<string>, picks: seq<nat>, draw: BlurDraw)
      reads this
    {
      var same := old(selectedLessons) == [] && old(selectedDifficulties) == [] && lessons == [] && diffs == [];
      && selectedLessons == lessons && selectedDifficulties == diffs
      && filteredCards == FilterDeck(deck, lessons, diffs, difficulties)
      && (same ==> cardOrder == old(cardOrder) && randomDisplayMode == old(randomDisplayMode))
      && (!same ==> cardOrder == Order(|filteredCards|, isRandom, picks))
      && (!same ==> randomDisplayMode == if isRandomBlur then RandomDisplayMode(draw) else old(randomDisplayMode))
      && currentIndex == BoundaryIndex(old(currentIndex), |filteredCards|)
      && !showExample && revealedFields == NO_FIELDS
      && hasViewedExample == (currentIndex == old(currentIndex) && old(hasViewedExample))
      && difficulties == old(difficulties) && displayMode == old(displayMode)
      && isRandom == old(isRandom) && isRandomBlur == old(isRandomBlur)
    }

    /**
     * A new lesson or difficulty selection, and the effects it sets off: the
     * filter runs with the current ledger; unless the result is the same
     * `flashcards` array as before, the order is rebuilt and the random blur
     * redrawn; the reveal state is cleared; and the cursor goes back to 0 if it
     * fell off the end, which also clears the example history.
     */
    method ChangeSelection(lessons: seq<string>, diffs: seq<string>, picks: seq<nat>, draw: BlurDraw)
      requires Valid()
      modifies this`selectedLessons, this`selectedDifficulties, this`filterLedger, this`filteredCards, this`cardOrder, this`orderPicks
      modifies this`randomDisplayMode, this`hasViewedExample, this`currentIndex, this`showExample, this`revealedFields
      ensures Valid()
      ensures selectedLessons == lessons && selectedDifficulties == diffs
      ensures filteredCards == FilterDeck(deck, lessons, diffs, difficulties)
      ensures var same := old(selectedLessons) == [] && old(selectedDifficulties) == [] && lessons == [] && diffs == [];
        same ==> cardOrder == old(cardOrder) && randomDisplayMode == old(randomDisplayMode)
      ensures var same := old(selectedLessons) == [] && old(selectedDifficulties) == [] && lessons == [] && diffs == [];
        !same ==> cardOrder == Order(|filteredCards|, isRandom, picks)
      ensures var same := old(selectedLessons) == [] && old(selectedDifficulties) == [] && lessons == [] && diffs == [];
        !same ==> randomDisplayMode == if isRandomBlur then RandomDisplayMode(draw) else old(randomDisplayMode)
      ensures currentIndex == BoundaryIndex(old(currentIndex), |filteredCards|)
      ensures !showExample && revealedFields == NO_FIELDS
      ensures hasViewedExample == (currentIndex == old(currentIndex) && old(hasViewedExample))
      ensures unchanged(this`difficulties, this`displayMode, this`isRandom, this`isRandomBlur)
      ensures Reselected(lessons, diffs, picks, draw)
    {
      if selectedLessons == [] && selectedDifficulties == [] && lessons == [] && diffs == [] {
        KeepWholeDeck();
      } else {
        Refilter(lessons, diffs, picks, draw);
      }
    }

    /** Nothing selected before or after: the filter gives back the same array, so only the reveal state is cleared. */
    method KeepWholeDeck()
      requires Valid() && selectedLessons == [] && selectedDifficulties == []
      modifies this`filterLedger, this`showExample, this`revealedFields
      ensures Valid()
      ensures selectedLessons == [] && selectedDifficulties == []
      ensures filteredCards == FilterDeck(deck, [], [], difficulties)
      ensures !showExample && revealedFields == NO_FIELDS
      ensures unchanged(this`cardOrder, this`randomDisplayMode, this`currentIndex, this`hasViewedExample)
      ensures unchanged(this`difficulties, this`displayMode, this`isRandom, this`isRandomBlur)
    {
      ArrangedWholeDeck(deck, filterLedger, difficulties, filteredCards, cardOrder, isRandom, orderPicks);
      filterLedger := difficulties;
      showExample, revealedFields := false, NO_FIELDS;
    }

    /** The filter gives a new array: the order is rebuilt, the blur redrawn and the cursor kept in range. */
    method Refilter(lessons: seq<string>, diffs: seq<string>, picks: seq<nat>, draw: BlurDraw)
      requires Valid()
      modifies this`selectedLessons, this`selectedDifficulties, this`filterLedger, this`filteredCards, this`cardOrder, this`orderPicks
      modifies this`randomDisplayMode, this`hasViewedExample, this`currentIndex, this`showExample, this`revealedFields
      ensures Valid()
      ensures selectedLessons == lessons && selectedDifficulties == diffs
      ensures filteredCards == FilterDeck(deck, lessons, diffs, difficulties)
      ensures cardOrder == Order(|filteredCards|, isRandom, picks)
      ensures randomDisplayMode == if isRandomBlur then RandomDisplayMode(draw) else old(randomDisplayMode)
      ensures currentIndex == BoundaryIndex(old(currentIndex), |filteredCards|)
      ensures !showExample && revealedFields == NO_FIELDS
      ensures hasViewedExample == (currentIndex == old(currentIndex) && old(hasViewedExample))
      ensures unchanged(this`difficulties, this`displayMode, this`isRandom, this`isRandomBlur)
    {
      Select(lessons, diffs, picks);
      ClampAndClear(draw);
    }

    /** The filtering and ordering effects: new selections, filtered with the current ledger, and a new order. */
    method Select(lessons: seq<string>, diffs: seq<string>, picks: seq<nat>)
      requires Valid()
      modifies this`selectedLessons, this`selectedDifficulties, this`filterLedger, this`filteredCards, this`cardOrder, this`orderPicks
      ensures Ordered()
      ensures selectedLessons == lessons && selectedDifficulties == diffs
      ensures filteredCards == FilterDeck(deck, lessons, diffs, difficulties)
      ensures cardOrder == Order(|filteredCards|, isRandom, picks)
    {
      var filtered := FilterDeck(deck, lessons, diffs, difficulties);
      selectedLessons, selectedDifficulties, filterLedger := lessons, diffs, difficulties;
      filteredCards, cardOrder, orderPicks := filtered, Order(|filtered|, isRandom, picks), picks;
    }

    /**
     * The effects that follow a new filtered deck: the random blur is redrawn,
     * the reveal state cleared, and a cursor that fell off the end goes back to
     * 0, which also clears the example history.
     */
    method ClampAndClear(draw: BlurDraw)
      requires Ordered()
      requires showExample ==> hasViewedExample
      requires isRandomBlur ==> 1 <= randomDisplayMode.FalseCount() <= 2
      modifies this`randomDisplayMode, this`hasViewedExample, this`currentIndex, this`showExample, this`revealedFields
      ensures Valid()
      ensures randomDisplayMode == if isRandomBlur then RandomDisplayMode(draw) else old(randomDisplayMode)
      ensures currentIndex == BoundaryIndex(old(currentIndex), |filteredCards|)
      ensures !showExample && revealedFields == NO_FIELDS
      ensures hasViewedExample == (currentIndex == old(currentIndex) && old(hasViewedExample))
    {
      var index := BoundaryIndex(currentIndex, |filteredCards|);
      if isRandomBlur {
        randomDisplayMode := RandomDisplayMode(draw);
      }
      hasViewedExample := index == currentIndex && hasViewedExample;
      currentIndex := index;
      showExample, revealedFields := false, NO_FIELDS;
    }

    /** `toggleLesson`. */
    method ToggleLesson(lesson: string, picks: seq<nat>, draw: BlurDraw)
      requires Valid()
      modifies this`selectedLessons, this`selectedDifficulties, this`filterLedger, this`filteredCards, this`cardOrder, this`orderPicks
      modifies this`randomDisplayMode, this`hasViewedExample, this`currentIndex, this`showExample, this`revealedFields
      ensures Valid()
      ensures selectedLessons == ToggleMember(old(selectedLessons), lesson)
      ensures selectedDifficulties == old(selectedDifficulties)
      ensures filteredCards == FilterDeck(deck, selectedLessons, selectedDifficulties, difficulties)
      ensures currentIndex == BoundaryIndex(old(currentIndex), |filteredCards|)
      ensures Reselected(ToggleMember(old(selectedLessons), lesson), old(selectedDifficulties), picks, draw)
    {
      ChangeSelection(ToggleMember(selectedLessons, lesson), selectedDifficulties, picks, draw);
    }

    /** `toggleDifficulty`. */
    method ToggleDifficulty(level: string, picks: seq<nat>, draw: BlurDraw)
      requires Valid()
      modifies this`selectedLessons, this`selectedDifficulties, this`filterLedger, this`filteredCards, this`cardOrder, this`orderPicks
      modifies this`randomDisplayMode, this`hasViewedExample, this`currentIndex, this`showExample, this`revealedFields
      ensures Valid()
      ensures selectedDifficulties == ToggleMember(old(selectedDifficulties), level)
      ensures selectedLessons == old(selectedLessons)
      ensures filteredCards == FilterDeck(deck, selectedLessons, selectedDifficulties, difficulties)
      ensures currentIndex == BoundaryIndex(old(currentIndex), |filteredCards|)
      ensures Reselected(old(selectedLessons), ToggleMember(old(selectedDifficulties), level), picks, draw)
    {
      ChangeSelection(selectedLessons, ToggleMember(selectedDifficulties, level), picks, draw);
    }

    /** `selectAllLessons`. */
    method SelectAllLessons(picks: seq<nat>, draw: BlurDraw)
      requires Valid()
      modifies this`selectedLessons, this`selectedDifficulties, this`filterLedger, this`filteredCards, this`cardOrder, this`orderPicks
      modifies this`randomDisplayMode, this`hasViewedExample, this`currentIndex, this`showExample, this`revealedFields
      ensures Valid()
      ensures selectedLessons == AllLessons(deck) && selectedDifficulties == old(selectedDifficulties)
      ensures filteredCards == FilterDeck(deck, selectedLessons, selectedDifficulties, difficulties)
      ensures Reselected(AllLessons(deck), old(selectedDifficulties), picks, draw)
    {
      ChangeSelection(AllLessons(deck), selectedDifficulties, picks, draw);
    }

    /** `deselectAllLessons`. */
    method DeselectAllLessons(picks: seq<nat>, draw: BlurDraw)
      requires Valid()
      modifies this`selectedLessons, this`selectedDifficulties, this`filterLedger, this`filteredCards, this`cardOrder, this`orderPicks
      modifies this`randomDisplayMode, this`hasViewedExample, this`currentIndex, this`showExample, this`revealedFields
      ensures Valid()
      ensures selectedLessons == [] && selectedDifficulties == old(selectedDifficulties)
      ensures filteredCards == FilterDeck(deck, selectedLessons, selectedDifficulties, difficulties)
      ensures Reselected([], old(selectedDifficulties), picks, draw)
    {
      ChangeSelection([], selectedDifficulties, picks, draw);
    }

    /** `selectAllDifficulties`: all three labels. */
    method SelectAllDifficulties(picks: seq<nat>, draw: BlurDraw)
      requires Valid()
      modifies this`selectedLessons, this`selectedDifficulties, this`filterLedger, this`filteredCards, this`cardOrder, this`orderPicks
      modifies this`randomDisplayMode, this`hasViewedExample, this`currentIndex, this`showExample, this`revealedFields
      ensures Valid()
      ensures selectedDifficulties == LEVELS && selectedLessons == old(selectedLessons)
      ensures filteredCards == FilterDeck(deck, selectedLessons, selectedDifficulties, difficulties)
      ensures Reselected(old(selectedLessons), LEVELS, picks, draw)
    {
      ChangeSelection(selectedLessons, LEVELS, picks, draw);
    }

    /** `deselectAllDifficulties`. */
    method DeselectAllDifficulties(picks: seq<nat>, draw: BlurDraw)
      requires Valid()
      modifies this`selectedLessons, this`selectedDifficulties, this`filterLedger, this`filteredCards, this`cardOrder, this`orderPicks
      modifies this`randomDisplayMode, this`hasViewedExample, this`currentIndex, this`showExample, this`revealedFields
      ensures Valid()
      ensures selectedDifficulties == [] && selectedLessons == old(selectedLessons)
      ensures filteredCards == FilterDeck(deck, selectedLessons, selectedDifficulties, difficulties)
      ensures Reselected(old(selectedLessons), [], picks, draw)
    {
      ChangeSelection(selectedLessons, [], picks, draw);
    }

    /**
     * `setIsRandom(v)`: a new value rebuilds the order, clears the reveal
     * state and redraws the random blur; the cursor stays where it is.
     */
    method SetRandom(v: bool, picks: seq<nat>, draw: BlurDraw)
      requires Valid()
      modifies this`isRandom, this`cardOrder, this`orderPicks, this`showExample, this`revealedFields, this`randomDisplayMode
      ensures Valid()
      ensures isRandom == v
      ensures v == old(isRandom) ==> unchanged(this)
      ensures v != old(isRandom) ==> (cardOrder == Order(|filteredCards|, v, picks)
        && !showExample && revealedFields == NO_FIELDS
        && randomDisplayMode == (if isRandomBlur then RandomDisplayMode(draw) else old(randomDisplayMode)))
      ensures unchanged(this`currentIndex, this`filteredCards, this`difficulties, this`hasViewedExample)
    {
      if v != isRandom {
        isRandom := v;
        cardOrder, orderPicks := Order(|filteredCards|, v, picks), picks;
        showExample := false;
        revealedFields := NO_FIELDS;
        if isRandomBlur {
          randomDisplayMode := RandomDisplayMode(draw);
        }
      }
    }

    /** `setIsRandomBlur(v)`: switching it on draws a new random display mode. */
    method SetRandomBlur(v: bool, draw: BlurDraw)
      requires Valid()
      modifies this`isRandomBlur, this`randomDisplayMode
      ensures Valid()
      ensures isRandomBlur == v
      ensures v && !old(isRandomBlur) ==> randomDisplayMode == RandomDisplayMode(draw)
      ensures !(v && !old(isRandomBlur)) ==> randomDisplayMode == old(randomDisplayMode)
      ensures unchanged(this`currentIndex, this`filteredCards, this`cardOrder, this`revealedFields, this`displayMode)
    {
      if v != isRandomBlur {
        isRandomBlur := v;
        if v {
          randomDisplayMode := RandomDisplayMode(draw);
        }
      }
    }

    /** One checkbox of the display mode. */
    method SetDisplayField(f: Field, v: bool)
      requires Valid()
      modifies this`displayMode
      ensures Valid()
      ensures displayMode == old(displayMode).Set(f, v)
      ensures unchanged(this`currentIndex, this`filteredCards, this`cardOrder, this`revealedFields, this`randomDisplayMode)
    {
      displayMode := displayMode.Set(f, v);
    }

    /**
     * The keyboard handler. Nothing happens while typing in a text field or
     * when no card passes the filter; otherwise the key's action runs.
     */
    method HandleKey(key: string, inTextField: bool, draw: BlurDraw)
      requires Valid()
      modifies this`revealedFields, this`hasViewedExample, this`randomDisplayMode, this`currentIndex, this`showExample
      modifies this`difficulties
      ensures Valid()
      ensures inTextField || |old(filteredCards)| == 0 || KeyAction(key) == Ignore ==> unchanged(this)
      ensures !inTextField && |old(filteredCards)| > 0 ==>
        var n := |filteredCards|;
        && (KeyAction(key) == GoNext ==> MovedTo(NextIndex(old(currentIndex), n), draw) && difficulties == old(difficulties))
        && (KeyAction(key) == GoPrev ==> MovedTo(PrevIndex(old(currentIndex), n), draw) && difficulties == old(difficulties))
        && (KeyAction(key) == RevealOrNext ==>
              if old(IsAnyHidden()) then
                View() == old(View()).(revealed := ALL_FIELDS)
                && unchanged(this`currentIndex, this`randomDisplayMode, this`difficulties)
              else MovedTo(NextIndex(old(currentIndex), n), draw) && difficulties == old(difficulties))
        && (KeyAction(key) == RevealOrToggleExample ==>
              (if old(IsAnyHidden()) then View() == old(View()).(revealed := ALL_FIELDS)
               else View() == old(View()).(showExample := !old(showExample), hasViewedExample := !old(showExample) || old(hasViewedExample)))
              && unchanged(this`currentIndex, this`randomDisplayMode, this`difficulties))
        && (KeyAction(key).Rate? ==>
              difficulties == ToggleLedger(old(difficulties), old(CurrentCardId()), KeyAction(key).level)
              && unchanged(this`currentIndex, this`randomDisplayMode, this`revealedFields, this`showExample, this`hasViewedExample))
        && (KeyAction(key) == ResetCard ==>
              View() == FRESH && unchanged(this`currentIndex, this`randomDisplayMode, this`difficulties))
    {
      if inTextField || |filteredCards| == 0 {
        return;
      }
      match KeyAction(key)
      case GoNext => Next(draw);
      case GoPrev => Prev(draw);
      case RevealOrNext =>
        if IsAnyHidden() {
          RevealAll();
        } else {
          Next(draw);
        }
      case RevealOrToggleExample =>
        if IsAnyHidden() {
          RevealAll();
        } else {
          SetShowExample(!showExample);
        }
      case Rate(level) => SetDifficulty(level);
      case ResetCard => HandleReset();
      case Ignore =>
    }
  }
}

=== FILE: settings.dfy ===
/**
 * The lesson list of the settings panel (`src/components/SettingsPanel.js`):
 * lesson ids are `DD.MM.YYYY` dates; the panel lists them newest first,
 * offers each year and month as a checkbox, and shows the lessons that match
 * the search text, the view, a selected year and a selected month.
 */
module Settings {
  import opened Options
  import opened Seqs

  /** How often `c` occurs in `s`. */
  function Count(s: string, c: char): nat {
    if s == [] then 0 else (if s[0] == c then 1 else 0) + Count(s[1..], c)
  }

  /** `s.split(sep)`: the pieces between the separators, one more than there are separators. */
  function Split(s: string, sep: char): (parts: seq<string>)
    ensures |parts| == Count(s, sep) + 1
    ensures forall k :: 0 <= k < |parts| ==> sep !in parts[k]
  {
    if s == [] then [""]
    else
      var rest := Split(s[1..], sep);
      if s[0] == sep then [""] + rest
      else [[s[0]] + rest[0]] + rest[1..]
  }

  /** `parts.join(sep)`. */
  function Join(parts: seq<string>, sep: char): string
    requires |parts| >= 1
  {
    if |parts| == 1 then parts[0] else parts[0] + [sep] + Join(parts[1..], sep)
  }

  /** Joining the pieces of a split gives back the string. */
  lemma {:induction false} JoinSplit(s: string, sep: char)
    ensures Join(Split(s, sep), sep) == s
  {
    if s != [] {
      JoinSplit(s[1..], sep);
      var rest := Split(s[1..], sep);
      if s[0] == sep {
        assert ([""] + rest)[1..] == rest;
      } else {
        var parts := [[s[0]] + rest[0]] + rest[1..];
        if |rest| > 1 {
          assert parts[1..] == rest[1..];
          assert Join(rest, sep) == rest[0] + [sep] + Join(rest[1..], sep);
        }
        assert s == [s[0]] + s[1..];
      }
    }
  }

  /** Splitting a join of separator-free pieces gives back the pieces. */
  lemma {:induction false} SplitJoin(parts: seq<string>, sep: char)
    requires |parts| >= 1
    requires forall k :: 0 <= k < |parts| ==> sep !in parts[k]
    ensures Split(Join(parts, sep), sep) == parts
    decreases |parts|, |parts[0]|
  {
    var head := parts[0];
    if |parts| == 1 && head == [] {
    } else if head == [] {
      var tail := parts[1..];
      SplitJoin(tail, sep);
      assert Join(parts, sep) == [sep] + Join(tail, sep);
      assert ([sep] + Join(tail, sep))[1..] == Join(tail, sep);
      assert [""] + tail == parts;
    } else {
      var shorter := [head[1..]] + parts[1..];
      assert shorter[1..] == parts[1..];
      assert sep !in head[1..] by {
        assert forall c :: c in head[1..] ==> c in head;
      }
      SplitJoin(shorter, sep);
      assert Join(parts, sep) == [head[0]] + Join(shorter, sep) by {
        if |parts| == 1 {
          assert head == [head[0]] + head[1..];
        } else {
          assert head == [head[0]] + head[1..];
          assert Join(parts, sep) == head + [sep] + Join(parts[1..], sep);
          assert Join(shorter, sep) == head[1..] + [sep] + Join(parts[1..], sep);
        }
      }
      assert ([head[0]] + Join(shorter, sep))[1..] == Join(shorter, sep);
      assert head[0] != sep;
      assert [head[0]] + head[1..] == head;
      assert [[head[0]] + shorter[0]] + shorter[1..] == parts;
    }
  }

  predicate IsDigit(c: char) {
    '0' <= c <= '9'
  }

  function DigitValue(c: char): nat
    requires IsDigit(c)
  {
    c as int - '0' as int
  }

  /** The decimal value of a string of digits. */
  function DigitsValue(s: string): nat
    requires forall k :: 0 <= k < |s| ==> IsDigit(s[k])
  {
    if s == [] then 0 else DigitsValue(s[..|s| - 1]) * 10 + DigitValue(s[|s| - 1])
  }

  /** A non-empty string of digits, read as a number; anything else is not a number. */
  function ParseNumber(s: string): (r: Option<nat>)
    ensures r.Some? <==> s != [] && forall k :: 0 <= k < |s| ==> IsDigit(s[k])
  {
    if s != [] && forall k :: 0 <= k < |s| ==> IsDigit(s[k]) then Some(DigitsValue(s)) else None
  }

  /** The decimal digits of `n`, without leading zeros: `n.toString()`. */
  function NatToString(n: nat): (s: string)
    ensures s != []
    ensures forall k :: 0 <= k < |s| ==> IsDigit(s[k])
    decreases n
  {
    var digit := ['0' + (n % 10) as char];
    if n < 10 then digit else NatToString(n / 10) + digit
  }

  /** Reading back the digits of a number gives the number. */
  lemma {:induction false} ParseNatToString(n: nat)
    ensures ParseNumber(NatToString(n)) == Some(n)
    decreases n
  {
    var s := NatToString(n);
    var digit := ['0' + (n % 10) as char];
    assert DigitValue(digit[0]) == n % 10;
    if n >= 10 {
      ParseNatToString(n / 10);
      assert s == NatToString(n / 10) + digit;
      assert s[..|s| - 1] == NatToString(n / 10);
      assert DigitsValue(s) == DigitsValue(NatToString(n / 10)) * 10 + n % 10;
    } else {
      assert s == digit;
      assert s[..|s| - 1] == [];
      assert DigitsValue(s) == DigitValue(digit[0]);
    }
  }

  /**
   * The value of `parseDate(...)` as far as the panel reads it: a calendar
   * date, or an invalid date, whose year and month are `NaN`.
   */
  datatype Date = Date(year: nat, month: nat, day: nat) | Invalid

  /** `new Date(0)` read in a time zone at or east of UTC: 1 January 1970. */
  const EPOCH: Date := Date(1970, 1, 1)

  /** The date `new Date("Y-M-D")` denotes: valid when the parts are numbers naming a month and a day of one. */
  function FromParts(y: string, m: string, d: string): Date {
    match (ParseNumber(y), ParseNumber(m), ParseNumber(d))
    case (Some(year), Some(month), Some(day)) =>
      if 1 <= month <= 12 && 1 <= day <= 31 then Date(year, month, day) else Invalid
    case _ => Invalid
  }

  /**
   * `parseDate`: the epoch for an empty string or one that does not split
   * into exactly three parts at '.'; otherwise `D.M.Y` read as year `Y`,
   * month `M`, day `D`.
   */
  function ParseDate(s: string): (r: Date)
    ensures s == "" || |Split(s, '.')| != 3 ==> r == EPOCH
    ensures s != "" && |Split(s, '.')| == 3 ==> r == FromParts(Split(s, '.')[2], Split(s, '.')[1], Split(s, '.')[0])
  {
    if s == "" then EPOCH
    else
      var parts := Split(s, '.');
      if |parts| == 3 then FromParts(parts[2], parts[1], parts[0]) else EPOCH
  }

  /** The lesson id of a date: `D.M.Y`. */
  function Format(y: nat, m: nat, d: nat): string {
    Join([NatToString(d), NatToString(m), NatToString(y)], '.')
  }

  /** A lesson id written from a calendar date parses back to that date. */
  lemma ParseFormat(y: nat, m: nat, d: nat)
    requires 1 <= m <= 12 && 1 <= d <= 31
    ensures ParseDate(Format(y, m, d)) == Date(y, m, d)
  {
    var parts := [NatToString(d), NatToString(m), NatToString(y)];
    forall k | 0 <= k < 3 ensures '.' !in parts[k] {
      assert forall c :: c in parts[k] ==> IsDigit(c);
    }
    SplitJoin(parts, '.');
    ParseNatToString(y);
    ParseNatToString(m);
    ParseNatToString(d);
  }

  /** `getFullYear()`: `None` stands for `NaN`. */
  function YearOf(d: Date): Option<nat> {
    if d.Date? then Some(d.year) else None
  }

  /** The month checkbox values, `'1'` to `'12'`. */
  const MONTHS: seq<string> := ["1", "2", "3", "4", "5", "6", "7", "8", "9", "10", "11", "12"]

  const MONTH_NAMES: seq<string> := ["Styczeń", "Luty", "Marzec", "Kwiecień", "Maj", "Czerwiec",
                                     "Lipiec", "Sierpień", "Wrzesień", "Październik", "Listopad", "Grudzień"]

  /** `(getMonth() + 1).toString()`: `'NaN'` for an invalid date. */
  function MonthValue(d: Date): string {
    if d.Date? then NatToString(d.month) else "NaN"
  }

  /** The month value of a date is its checkbox value; an invalid date has none. */
  lemma MonthValueChecks(d: Date)
    ensures d.Date? && 1 <= d.month <= 12 ==> MonthValue(d) == MONTHS[d.month - 1]
    ensures d.Invalid? ==> MonthValue(d) !in MONTHS
  {
    if d.Date? && 10 <= d.month <= 12 {
      assert NatToString(d.month) == NatToString(1) + NatToString(d.month - 10);
    }
  }

  /** The time order of dates, as one number: later dates have larger keys, invalid dates the smallest. */
  function DateKey(d: Date): int {
    if d.Date? then d.year * 10000 + d.month * 100 + d.day else -1
  }

  /** `a` comes before `b` in the calendar. */
  predicate Before(a: Date, b: Date)
    requires a.Date? && b.Date?
  {
    a.year < b.year || (a.year == b.year && (a.month < b.month || (a.month == b.month && a.day < b.day)))
  }

  predicate WellFormed(d: Date) {
    d.Date? ==> 1 <= d.month <= 12 && 1 <= d.day <= 31
  }

  /** Every date `ParseDate` gives names a month and a day of one. */
  lemma ParseDateWellFormed(s: string)
    ensures WellFormed(ParseDate(s))
  {
  }

  /** The key orders calendar dates as the calendar does. */
  lemma DateKeyOrder(a: Date, b: Date)
    requires a.Date? && b.Date? && WellFormed(a) && WellFormed(b)
    ensures DateKey(a) < DateKey(b) <==> Before(a, b)
  {
  }

  function LessonKey(lesson: string): int {
    DateKey(ParseDate(lesson))
  }

  /** `sortedAllLessons`: every lesson, newest date first. */
  function SortedAllLessons(allLessons: seq<string>): (r: seq<string>)
    ensures multiset(r) == multiset(allLessons)
    ensures forall i, j :: 0 <= i < j < |r| ==> LessonKey(r[i]) >= LessonKey(r[j])
  {
    InsertionSortDesc(allLessons, LessonKey)
  }

  /**
   * The sort is stable, so lessons with the same date key, such as `5.1.2024`
   * and `5.01.2024` (both read as local midnight), keep their order in `allLessons`.
   */
  lemma SortedAllLessonsStable(allLessons: seq<string>, k: int)
    ensures Filter(SortedAllLessons(allLessons), KeyIs(LessonKey, k)) == Filter(allLessons, KeyIs(LessonKey, k))
  {
    InsertionSortStable(allLessons, LessonKey, k);
  }

  function LessonYear(lesson: string): Option<nat> {
    YearOf(ParseDate(lesson))
  }

  /** `getFullYear()` of each lesson, in order. */
  function Years(allLessons: seq<string>): (r: seq<Option<nat>>)
    ensures |r| == |allLessons|
    ensures forall k :: 0 <= k < |r| ==> r[k] == LessonYear(allLessons[k])
  {
    seq(|allLessons|, k requires 0 <= k < |allLessons| => LessonYear(allLessons[k]))
  }

  /** The order of years: larger first, `NaN` last. */
  function YearKey(y: Option<nat>): int {
    if y.Some? then y.value else -1
  }

  /**
   * `uniqueYears`: each lesson's year once, largest first. The sort compares
   * `NaN` as equal to everything; the model puts it last.
   */
  function UniqueYears(allLessons: seq<string>): seq<Option<nat>> {
    InsertionSortDesc(Distinct(Years(allLessons)), YearKey)
  }

  /** The years are distinct, in strictly falling order, and are exactly the lessons' years. */
  lemma UniqueYearsSpec(allLessons: seq<string>)
    ensures var r := UniqueYears(allLessons);
      && NoDuplicates(r)
      && (forall i, j :: 0 <= i < j < |r| ==> YearKey(r[i]) > YearKey(r[j]))
      && (forall y :: y in r <==> exists k :: 0 <= k < |allLessons| && LessonYear(allLessons[k]) == y)
  {
    var years := Years(allLessons);
    var distinct := Distinct(years);
    var r := InsertionSortDesc(distinct, YearKey);
    PermutationOfDistinct(r, distinct);
    YearsDescending(r);
    forall y ensures y in r <==> y in years {
      assert y in r <==> y in multiset(distinct);
    }
    YearsMembers(allLessons);
  }

  /** A falling list of distinct years falls strictly. */
  lemma YearsDescending(r: seq<Option<nat>>)
    requires NoDuplicates(r) && SortedDesc(r, YearKey)
    ensures forall i, j :: 0 <= i < j < |r| ==> YearKey(r[i]) > YearKey(r[j])
  {
    forall i, j | 0 <= i < j < |r| ensures YearKey(r[i]) > YearKey(r[j]) {
      assert r[i] != r[j];
    }
  }

  lemma YearsMembers(allLessons: seq<string>)
    ensures forall y :: y in Years(allLessons) <==> exists k :: 0 <= k < |allLessons| && LessonYear(allLessons[k]) == y
  {
    var years := Years(allLessons);
    forall y ensures y in years <==> exists k :: 0 <= k < |allLessons| && LessonYear(allLessons[k]) == y {
      if y in years {
        var k :| 0 <= k < |years| && years[k] == y;
      }
    }
  }

  /**
   * One row of `filteredLessons`: it contains the search text, the view
   * shows it, and its date's year and month are both checked.
   */
  predicate Listed(lesson: string, search: string, view: string, selectedLessons: seq<string>,
                   years: seq<Option<nat>>, months: seq<string>) {
    && Includes(lesson, search)
    && (view == "all" || lesson in selectedLessons)
    && LessonYear(lesson) in years
    && MonthValue(ParseDate(lesson)) in months
  }

  function ListedBy(search: string, view: string, selectedLessons: seq<string>,
                    years: seq<Option<nat>>, months: seq<string>): string -> bool {
    lesson => Listed(lesson, search, view, selectedLessons, years, months)
  }

  /** `filteredLessons`: the sorted lessons that pass all four tests (`FilteredLessonsMembers`). */
  function FilteredLessons(sorted: seq<string>, search: string, view: string, selectedLessons: seq<string>,
                           years: seq<Option<nat>>, months: seq<string>): (r: seq<string>)
    ensures |r| <= |sorted|
  {
    Filter(sorted, ListedBy(search, view, selectedLessons, years, months))
  }

  /**
   * A lesson is listed iff it is among the sorted lessons and contains the
   * search text, is selected unless the view is 'all', and has a checked year
   * and a checked month; the list keeps the sorted order.
   */
  lemma FilteredLessonsMembers(sorted: seq<string>, search: string, view: string, selectedLessons: seq<string>,
                               years: seq<Option<nat>>, months: seq<string>)
    ensures var r := FilteredLessons(sorted, search, view, selectedLessons, years, months);
      forall lesson :: lesson in r <==>
        && lesson in sorted
        && OccursIn(search, lesson)
        && (view == "all" || lesson in selectedLessons)
        && LessonYear(lesson) in years
        && MonthValue(ParseDate(lesson)) in months
    ensures view != "all" ==> forall lesson :: lesson in FilteredLessons(sorted, search, view, selectedLessons, years, months) ==> lesson in selectedLessons
    ensures IsSubsequence(FilteredLessons(sorted, search, view, selectedLessons, years, months), sorted)
  {
    FilterSubsequence(sorted, ListedBy(search, view, selectedLessons, years, months));
  }

  /** `y !== year` on years, where `NaN` is `None`: `NaN` differs from everything, itself included. */
  predicate StrictlyDiffers(y: Option<nat>, year: Option<nat>) {
    y.None? || year.None? || y != year
  }

  /**
   * `toggleYear` as written: `includes` finds `NaN` (it compares by
   * SameValueZero), but the `!==` filter that should drop it keeps every year.
   */
  function ToggleYearAsWritten(years: seq<Option<nat>>, year: Option<nat>): seq<Option<nat>> {
    if year in years then Filter(years, y => StrictlyDiffers(y, year)) else years + [year]
  }

  /** For a real year the written toggle is the membership toggle. */
  lemma ToggleYearAsWrittenAgrees(years: seq<Option<nat>>, year: nat)
    ensures ToggleYearAsWritten(years, Some(year)) == ToggleMember(years, Some(year))
  {
    if Some(year) in years {
      var strict := y => StrictlyDiffers(y, Some(year));
      var other := Unequal(Some(year));
      assert ToggleYearAsWritten(years, Some(year)) == Filter(years, strict);
      assert ToggleMember(years, Some(year)) == Filter(years, other);
      FilterCongruent(years, strict, other);
    }
  }

  /** The `NaN` year, once checked, cannot be unchecked: toggling it returns the same list. */
  lemma NaNYearStaysChecked(years: seq<Option<nat>>)
    requires None in years
    ensures ToggleYearAsWritten(years, None) == years
    ensures None in ToggleYearAsWritten(years, None)
  {
    FilterKeepsAll(years, y => StrictlyDiffers(y, None));
  }

  /** The panel's own state: the search text, the view, and the checked years and months. */
  class SettingsPanel {
    var allLessons: seq<string>
    var lessonSearch: string
    /** `'all'` or `'selected'`. */
    var lessonView: string
    var selectedYears: seq<Option<nat>>
    var selectedMonths: seq<string>

    /** Only month values are ever checked. */
    ghost predicate Valid()
      reads this
    {
      forall m :: m in selectedMonths ==> m in MONTHS
    }

    /** The panel as mounted: empty search, every lesson in view, every year and every month checked. */
    constructor (lessons: seq<string>)
      ensures Valid()
      ensures allLessons == lessons && lessonSearch == "" && lessonView == "all"
      ensures selectedYears == UniqueYears(lessons) && selectedMonths == MONTHS
    {
      allLessons, lessonSearch, lessonView := lessons, "", "all";
      selectedYears, selectedMonths := UniqueYears(lessons), MONTHS;
    }

    /**
     * `toggleYear`, corrected so that the `NaN` year can be unchecked too
     * (`NaNYearStaysChecked`): flips whether `year` is checked, and nothing else.
     */
    method ToggleYear(year: Option<nat>)
      requires Valid()
      modifies this`selectedYears
      ensures Valid()
      ensures selectedYears == ToggleMember(old(selectedYears), year)
      ensures year in selectedYears <==> year !in old(selectedYears)
      ensures forall y :: y != year ==> (y in selectedYears <==> y in old(selectedYears))
    {
      selectedYears := ToggleMember(selectedYears, year);
    }

    /** `toggleMonth` for one of the month checkboxes. */
    method ToggleMonth(month: string)
      requires Valid() && month in MONTHS
      modifies this`selectedMonths
      ensures Valid()
      ensures selectedMonths == ToggleMember(old(selectedMonths), month)
      ensures month in selectedMonths <==> month !in old(selectedMonths)
      ensures forall m :: m != month ==> (m in selectedMonths <==> m in old(selectedMonths))
    {
      selectedMonths := ToggleMember(selectedMonths, month);
    }

    method SetLessonSearch(s: string)
      requires Valid()
      modifies this`lessonSearch
      ensures Valid()
      ensures lessonSearch == s
    {
      lessonSearch := s;
    }

    method SetLessonView(v: string)
      requires Valid()
      modifies this`lessonView
      ensures Valid()
      ensures lessonView == v
    {
      lessonView := v;
    }

    /**
     * A new `allLessons` prop. The sync effect runs when the number of years
     * changed: it checks every year again if none is checked and there are years.
     */
    method SetAllLessons(lessons: seq<string>)
      requires Valid()
      modifies this`allLessons, this`selectedYears
      ensures Valid()
      ensures allLessons == lessons
      ensures var n := |UniqueYears(lessons)|;
        n != |UniqueYears(old(allLessons))| && old(selectedYears) == [] && n > 0 ==> selectedYears == UniqueYears(lessons)
      ensures var n := |UniqueYears(lessons)|;
        !(n != |UniqueYears(old(allLessons))| && old(selectedYears) == [] && n > 0) ==> selectedYears == old(selectedYears)
    {
      var n := |UniqueYears(lessons)|;
      if n != |UniqueYears(allLessons)| && selectedYears == [] && n > 0 {
        selectedYears := UniqueYears(lessons);
      }
      allLessons := lessons;
    }

    /** The lessons the panel lists for the app's `selectedLessons`. */
    function Lessons(selectedLessons: seq<string>): seq<string>
      reads this
    {
      FilteredLessons(SortedAllLessons(allLessons), lessonSearch, lessonView, selectedLessons, selectedYears, selectedMonths)
    }

    /**
     * Every listed lesson is one of the app's lessons with a valid date: an
     * invalid date has the month `'NaN'`, which is never checked.
     */
    lemma ListedLessonsValid(selectedLessons: seq<string>)
      requires Valid()
      ensures forall lesson :: lesson in Lessons(selectedLessons) ==> lesson in allLessons && ParseDate(lesson).Date?
    {
      var sorted := SortedAllLessons(allLessons);
      FilteredLessonsMembers(sorted, lessonSearch, lessonView, selectedLessons, selectedYears, selectedMonths);
      forall lesson | lesson in Lessons(selectedLessons) ensures lesson in allLessons && ParseDate(lesson).Date? {
        assert lesson in multiset(sorted);
        MonthValueChecks(ParseDate(lesson));
      }
    }
  }
}
